=== FILE: README.md ===
# OpenCL Game of Life and n-body rasterizer, modelled in Dafny

This project models the data-parallel core of two small OpenCL demos and proves
properties about it.

- **Game of Life** (`gol/gol.cpp`). The `GOL` kernel computes one generation of
  Conway's automaton on a width-by-height torus. Every work item does three
  things:
  - it sums the 3x3 window around its cell, wrapping the coordinates with
    `(v + n) % n`;
  - it subtracts the cell itself;
  - it stores `(n == 3) || (n == 2 && in[id])` into its own slot of the output
    buffer.

  The host side does the rest:
  - it launches the kernel over the whole screen;
  - it reads the result back and swaps the two device buffers;
  - it paints every live cell green;
  - it toggles running with the space key, reseeds on 'R'/'r' and exits on
    Escape.
- **n-body visualisation** (`nbody/NBody.cpp`). `VisualizationClear` blanks
  every pixel of the frame. `Visualization` then runs one work item per
  particle, and each paints white the `(2w+1) x (2w+1)` square around the
  particle's pixel. `Sampl` clamps every sample into the buffer.

The files:

| file | module | what it holds |
|---|---|---|
| `grid2d.dfy` | `Grid2D` | row-major offsets `y * width + x`, decoding them, and the work items of a 2-D launch |
| `scatter.dfy` | `Scatter` | a kernel's memory effect as a list of writes `buffer[index] = value`, and when their order does not matter |
| `life.dfy` | `Life` | the `GOL` kernel: wrapped reads, the window count, the rule, the imperative work item, the whole launch, known patterns |
| `life_host.dfy` | `LifeHost` | host buffers, buffer swap, image colouring, `Idle` and `KeyUp` |
| `splat.dfy` | `Splat` | `Sampl`, the clear kernel, the splat kernel's loops, and the rendered frame |

Modelling choices:

- **Cells.** A cell is a `Bit` (0 or 1).
- **The kernel's `%`.** It is modelled as C's truncating remainder (`CRem`).
  The wrapped coordinate `Wrap` is defined case by case (one step before the
  first row or column is the last one, one step past the last is the first).
  `WrapIsRemainder` proves that on the kernel's operands this is both C's
  `(v + n) % n` and the mathematical modulus.
- **A launch.** Each work item yields its list of writes, and the writes are
  stored one after another (`Scatter.Apply`). The lemmas show that the result
  does not depend on the order of the work items, nor on the output buffer's
  old contents.
- **Pixel coordinates.** The splat kernel works on float coordinates. The
  model takes each particle at an integer pixel centre. `Splat.SampledCentre`
  proves that truncating `p * (width - 1) + i` and then clamping samples the
  same pixel as clamping `floor(p * (width - 1)) + i`. So the integer centre
  loses nothing.
- **Scaling.** The source scales positions by `width - 1` and `height - 1`, not
  by `width` and `height`.
- **The kernel's `char` accumulator.** The loop invariants of
  `Life.RunWorkItem` keep it within 0..9, so it never overflows and needs no
  wrap-around model.
- **Write order in the splat.** Overlapping splats store the same colour, so
  the order of their writes never matters. `Splat.SplatsInterleaved` proves
  this for every interleaving.

## Model

| member | source | states |
|---|---|---|
| Grid2D.IndexFormula | gol/gol.cpp:27 | the flat offset of cell (x, y) is `y * width + x` |
| Grid2D.IndexRoundTrip | gol/gol.cpp:27 | an in-range cell has an in-range offset, and the cell's column and row are recovered from it |
| Grid2D.IndexDecode | nbody/NBody.cpp:49-50 | every offset below `width * height` is the offset of exactly one in-range pixel |
| Grid2D.NDRange | gol/gol.cpp:192 | the launch's global range lists only in-range work items and covers every cell |
| Scatter.Apply | gol/gol.cpp:29 | storing a list of writes keeps the buffer's length, leaves untouched slots as they were, and leaves in each written slot the value of the last write to it |
| Scatter.ApplyDetermined | nbody/NBody.cpp:73 | when every write stores the value a reference buffer holds for its slot, every written slot ends up with the reference value and every other slot keeps its old value |
| Scatter.ApplyReordered | nbody/NBody.cpp:250 | writes whose value depends only on their slot may be reordered or interleaved freely without changing the buffer |
| Life.WrapIsRemainder | gol/gol.cpp:23-24 | for v between -1 and n, the wrapped coordinate equals C's truncating `(v + n) % n` and also `v mod n` |
| Life.Wrap | gol/gol.cpp:23-24 | a wrapped window coordinate always lies in [0, n) |
| Life.ReadsInBounds | gol/gol.cpp:20-25 | every read `in[row * width + col]` of the window loops stays inside the grid |
| Life.RowIsThreeReads | gol/gol.cpp:21-25 | the inner loop adds the three wrapped cells of one window row |
| Life.WindowIsThreeRows | gol/gol.cpp:20-25 | the outer loop adds the three window rows |
| Life.WindowIsNineReads | gol/gol.cpp:20-26 | the kernel's two loops add up exactly the nine wrapped reads of the 3x3 window |
| Life.CountIsNeighbours | gol/gol.cpp:19-28 | on every grid, the window sum minus the cell itself is the number of live cells among the eight wrapped neighbours |
| Life.NeighbourCount | gol/gol.cpp:19-28 | the kernel's `aliveNeighbors` is the number of live cells among the eight listed wrapped neighbours, and lies in 0..8 |
| Life.NeighbourOffset | gol/gol.cpp:20-21 | the i-th listed neighbour lies at the i-th non-zero window offset, in the kernel's loop order |
| Life.Rule | gol/gol.cpp:29 | the stored value is 1 exactly when Conway's B3/S23 rule keeps or makes the cell alive |
| Life.BirthSurvival | gol/gol.cpp:29 | three neighbours give a live cell, two keep the current state, any other count gives a dead cell |
| Life.NextCell | gol/gol.cpp:27-29 | the value work item (x, y) stores is 1 exactly when Conway's B3/S23 rule holds for the cell's state and the live count of its eight wrapped neighbours |
| Life.Step | gol/gol.cpp:17-29 | the next generation has one cell per grid cell, and the cell at each offset is alive exactly when Conway's B3/S23 rule holds for its current state and the live count of the eight wrapped neighbours of its position |
| Life.StepAt | gol/gol.cpp:27-29 | cell (x, y) of the next generation is what work item (x, y) stores |
| Life.StepFollowsRule | gol/gol.cpp:19-29 | every cell of the next generation follows B3/S23 applied to the live count of its eight wrapped window cells |
| Life.AdjacentIsWindow | gol/gol.cpp:20-24 | a coordinate is within one step of v modulo n exactly when it is one of the three wrapped window coordinates |
| Life.OffsetIsNeighbour | gol/gol.cpp:20-24 | on sides of at least 3, the cell at every non-zero window offset is a toroidal neighbour |
| Life.AroundInjective | gol/gol.cpp:20-24 | on sides of at least 3, different window offsets reach different cells |
| Life.AroundDecode | gol/gol.cpp:23-25 | the cell read at window offset (dx, dy) is the pair of wrapped coordinates |
| Life.NeighboursDistinct | gol/gol.cpp:20-28 | on sides of at least 3, the eight neighbours are pairwise distinct and none is the cell itself |
| Life.ListedIsNeighbour | gol/gol.cpp:20-28 | on sides of at least 3, every neighbour the kernel reads is a toroidal neighbour |
| Life.NeighbourIsListed | gol/gol.cpp:20-28 | on every grid, every toroidal neighbour is read by the kernel |
| Life.ExactNeighbourhood | gol/gol.cpp:20-28 | on sides of at least 3 the kernel counts exactly the eight toroidal neighbours, each once |
| Life.IsolatedCellDies | gol/gol.cpp:29 | on sides of at least 3, a cell with no live toroidal neighbour is dead in the next generation, whatever its state |
| Life.SingleCellCountsItself | gol/gol.cpp:20-28 | on a 1x1 torus the lone cell is counted eight times as its own neighbour |
| Life.RowSum | gol/gol.cpp:21-26 | the cells read on one window row sum to between 0 and the number of columns read |
| Life.WindowRows | gol/gol.cpp:20-26 | the sum over k full window rows lies between 0 and 3k |
| Life.AddWindowRow | gol/gol.cpp:21-26 | the inner loop adds one window row's sum to the accumulator and adds at most 3 |
| Life.RunWorkItem | gol/gol.cpp:12-31 | an in-range work item changes exactly its own output slot, to the rule applied to its neighbour count, which is that cell of the next generation; an out-of-range item changes nothing |
| Life.KernelVerdict | gol/gol.cpp:27-29 | the kernel's last statements, the window sum less the cell fed to `(n == 3) \|\| (n == 2 && in[id])`, give Conway's verdict on the eight neighbours, and that verdict is the cell's value in the next generation |
| Life.ItemWrites | gol/gol.cpp:17-29 | a work item writes once, to its own cell and with the next generation's value, exactly when it lies in the grid |
| Life.LaunchWrites | gol/gol.cpp:17-29 | a launch's writes stay in bounds, store next-generation values only, and reach every covered cell |
| Life.LaunchComputesStep | gol/gol.cpp:192 | a launch covering the grid leaves exactly the next generation, in any work-item order and whatever the output buffer held |
| Life.RectRow | gol/gol.cpp:21-25 | on a rectangular pattern, one window row sums to its row's membership times the column hits |
| Life.RectCount | gol/gol.cpp:19-28 | on a rectangular pattern, the neighbour count is row hits times column hits, minus the cell itself |
| Life.BlockCell | gol/gol.cpp:29 | around a 2x2 block on sides of at least 4, every cell keeps its state |
| Life.BlockIsStillLife | gol/gol.cpp:29 | a 2x2 block on an otherwise dead torus of sides at least 4 is a still life |
| Life.LoneCell | gol/gol.cpp:29 | around a single live cell on sides of at least 3, every cell is dead next |
| Life.LoneCellDies | gol/gol.cpp:29 | on sides of at least 3, a single live cell dies, and the whole grid is dead after one step |
| LifeHost.Paint | gol/gol.cpp:206-207 | the image has one pixel per cell, green exactly where the cell is alive |
| LifeHost.PaintShowsCells | gol/gol.cpp:206-207 | a pixel is green exactly when its cell is alive, and the generation can be read back off the image |
| LifeHost.PaintImage | gol/gol.cpp:206-207 | the colouring loop paints the whole image from the host buffer, one pixel per cell |
| LifeHost.RunOpenCL | gol/gol.cpp:181-208 | after one step the input buffer holds the next generation, the output buffer holds the previous input (the swap), the host buffer holds the result, and the image shows it |
| LifeHost.Idle | gol/gol.cpp:249-254 | a running idle callback advances one generation; a paused one changes nothing |
| LifeHost.KeyUp | gol/gol.cpp:263-282 | Escape and only Escape exits, with status 0; space flips the run flag; 'R'/'r' put a new seed into the input and host buffers; every other key changes nothing |
| LifeHost.PausedTicksChangeNothing | gol/gol.cpp:251-252 | while paused, any number of idle callbacks leaves the whole state unchanged |
| LifeHost.RunningTicksAdvance | gol/gol.cpp:249-254 | while running, n idle callbacks advance the input buffer n generations; the output buffer holds generation n-1, and the host buffer and image show generation n |
| LifeHost.SpaceTwice | gol/gol.cpp:273-274 | pressing space twice restores the state exactly |
| LifeHost.PauseFreezes | gol/gol.cpp:273-274 | after space on a running simulation, no number of idle callbacks changes the state |
| LifeHost.ReseedRestarts | gol/gol.cpp:277-279 | after a reseed, the next step starts from the seed, whatever the buffers held |
| Splat.Clamp | nbody/NBody.cpp:56-57 | a clamped coordinate lies in the buffer, equals the input when that is already inside, and is the nearest pixel to it |
| Splat.ClampIdempotent | nbody/NBody.cpp:56-58 | clamping twice is clamping once, on every side length, zero included |
| Splat.ClampMonotone | nbody/NBody.cpp:56-57 | clamping keeps the order of coordinates |
| Splat.ClampStep | nbody/NBody.cpp:56-57 | moving a coordinate by one moves its clamped pixel by at most one, on every side length, zero included |
| Splat.Sampl | nbody/NBody.cpp:54-59 | a sampled coordinate lies in the buffer, and an in-buffer coordinate is returned unchanged |
| Splat.SamplIdempotent | nbody/NBody.cpp:54-59 | sampling a sampled coordinate changes nothing, on every side length, zero included |
| Splat.Trunc | nbody/NBody.cpp:72 | the float-to-int conversion truncates toward zero |
| Splat.SampledShift | nbody/NBody.cpp:72 | once clamped, truncating `p + i` gives the same pixel as `floor(p) + i`, on every side length, zero included |
| Splat.PixelCentre | nbody/NBody.cpp:72 | a particle's pixel centre is the floor of its position scaled by width-1 and height-1 |
| Splat.SampledCentre | nbody/NBody.cpp:72 | every sample the kernel takes from the float position is the sample of the integer pixel centre shifted by (i, j), on every side length, zero included |
| Splat.Radius | nbody/NBody.cpp:68 | the splat radius is `width * 0.002` truncated to an integer |
| Splat.ClearItem | nbody/NBody.cpp:49-50 | a clear work item blanks its own pixel if it lies in the buffer, and writes nothing otherwise |
| Splat.ClearWrites | nbody/NBody.cpp:47-50 | the clear launch writes only blanks, only inside the buffer, and reaches every covered pixel |
| Splat.ClearBlanks | nbody/NBody.cpp:44-51 | a clear launch covering the buffer blanks every pixel, whatever the buffer held, in any work-item order |
| Splat.Clear | nbody/NBody.cpp:239 | the clear launch over the whole buffer leaves every pixel blank |
| Splat.SplatIndex | nbody/NBody.cpp:72-73 | the offset a splat writes always lies inside the buffer |
| Splat.ReachedExtend | nbody/NBody.cpp:69-72 | clamped samples at consecutive offsets never skip a pixel, on every side length, zero included |
| Splat.ReachedIsSampled | nbody/NBody.cpp:69-72 | the pixels hit by offsets lo..hi-1 on one axis are exactly the interval between the clamped end samples, on every side length, zero included |
| Splat.ColumnWrites | nbody/NBody.cpp:70-74 | the inner loop writes only white, only inside the buffer, and exactly the pixels in its clamped column |
| Splat.BoxWrites | nbody/NBody.cpp:69-74 | the two loops write only white, only inside the buffer, and exactly the pixels in the clamped rectangle |
| Splat.SplatWrites | nbody/NBody.cpp:63-75 | one particle's work item paints exactly its clamped square of radius w |
| Splat.FootprintIsSampled | nbody/NBody.cpp:69-73 | a pixel is in a particle's footprint exactly when some pair of offsets between -w and w samples it |
| Splat.AllSplats | nbody/NBody.cpp:250 | the particle launch writes only white, only inside the buffer, and exactly the pixels some particle covers |
| Splat.Render | nbody/NBody.cpp:239-250 | the frame keeps the buffer's size, and the pixel at every offset is white exactly when some particle's clamped square covers it, blank otherwise |
| Splat.RenderShowsParticles | nbody/NBody.cpp:239-250 | after a frame, a pixel is white exactly when some particle's clamped square covers it, and blank otherwise |
| Splat.SplatsInterleaved | nbody/NBody.cpp:250 | every reordering or interleaving of the particle work items' writes gives the same frame |
| Splat.RenderOrderIndependent | nbody/NBody.cpp:73 | a frame depends only on which pixel centres occur, not on the particles' order or multiplicity, nor on the old buffer contents |

## Left out

- **OpenCL and GLUT plumbing.** The model leaves out:
  - platform, device, context and program setup;
  - setting kernel arguments;
  - the error checks that call `exit(-1)`.

  Every OpenCL call is taken to succeed.
- **Display** (gol.cpp:237-246). It draws the image only while running; the image itself is the model's output.
- **`KeyDown` and `keysPressed`.** The array is written but never read.
- **Mouse callbacks.** `MouseClick` and `MouseMove` are empty.
- **Allocation and resize** (`AllocateData`, `Reshape`, `AllocateVisualizationBuffers`). The screen size is fixed within a `Host`.
- **Random seeding.** `InitData` draws each cell alive with probability 0.3. The reseed key instead takes the seed grid as a parameter, which can be any 0/1 grid of the right shape.
- **Escape.** `DestroyOpenCL` releases resources before `exit(0)`; this is modelled only as `Quit(0)`.
- **Integer width.** The grid sizes are passed to the kernel as `int`. The model assumes they fit.
- **The n-body force kernel** (`SimulationKernel`). It is float arithmetic: softened gravity, then an Euler update. It is left out. Its loop skips the particle itself (`i != id`), and it updates particles in place while other work items are still reading them.
- **`ResetSimulation`.** Its random particle positions are not modelled.
- **Float arithmetic.** Positions are modelled as reals. Rounding of `posdir.x * (width - 1)` and of the constant `2.0e-3` is not modelled.
- Splat.Radius: computes `width / 500` exactly. The float constant `2.0e-3f` lies just above 0.002, so the source's product is never one smaller; it could be one larger only for widths of the order of 2^24, far beyond any window.
- Splat.SplatIndex: requires width and height of at least 1. With a zero side the buffer is empty and the kernel writes outside it: to pixel 0 when the width is 0, and to pixel `Clamp(x, width)` of the absent first row when only the height is 0.
- Splat.ColumnWrites: requires width and height of at least 1, as SplatIndex does.
- Splat.BoxWrites: requires width and height of at least 1, as SplatIndex does.
- Splat.SplatWrites: requires width and height of at least 1, as SplatIndex does.
- Splat.AllSplats: requires width and height of at least 1, as SplatIndex does.
- Splat.Render: requires width and height of at least 1, as SplatIndex does.
- Splat.RenderShowsParticles: requires width and height of at least 1, as SplatIndex does.
- Splat.SplatsInterleaved: requires width and height of at least 1, as SplatIndex does.
- Splat.RenderOrderIndependent: requires width and height of at least 1, as SplatIndex does.

=== FILE: grid2d.dfy ===
/** Row-major addressing of a width-by-height raster, and the work items of a
    two-dimensional kernel launch over it. Both kernels of the system address
    their buffers this way: the cellular automaton as `row * width + col`, the
    particle rasterizer as `x + y * width`. */
module Grid2D {

  /** Flat offset of column `x`, row `y` in a raster `width` cells wide:
      the `y` full rows above it, then `x` cells of its own row. This is
      the kernels' `row * width + col` (and `x + y * width`), see `IndexFormula`, written as a
      recursion on `y` so that proofs about offsets stay in linear
      arithmetic, where the solver is fast and predictable. */
  function Index(width: nat, x: nat, y: nat): nat
    decreases y
  {
    if y == 0 then x else width + Index(width, x, y - 1)
  }

  /** The offset is the kernels' `row * width + col`, here `y * width + x`. */
  lemma {:induction false} IndexFormula(width: nat, x: nat, y: nat)
    ensures Index(width, x, y) == y * width + x
    decreases y
  {
    if y > 0 {
      IndexFormula(width, x, y - 1);
    }
  }

  /** Column of flat offset `k`. */
  function Column(width: nat, k: nat): nat
    requires 0 < width
    decreases k
  {
    if k < width then k else Column(width, k - width)
  }

  /** Row of flat offset `k`. */
  function Row(width: nat, k: nat): nat
    requires 0 < width
    decreases k
  {
    if k < width then 0 else 1 + Row(width, k - width)
  }

  lemma MulMonotone(a: int, b: int, c: nat)
    requires a <= b
    ensures a * c <= b * c
  {
  }

  /** An in-range cell has an in-range offset. */
  lemma {:induction false} IndexInBounds(width: nat, height: nat, x: nat, y: nat)
    requires x < width && y < height
    ensures Index(width, x, y) < width * height
    decreases y
  {
    if y > 0 {
      IndexInBounds(width, height - 1, x, y - 1);
      assert width * height == width * (height - 1) + width;
    }
  }

  /** Distinct in-range cells have distinct offsets. */
  lemma {:induction false} IndexInjective(width: nat, x1: nat, y1: nat, x2: nat, y2: nat)
    requires x1 < width && x2 < width
    requires Index(width, x1, y1) == Index(width, x2, y2)
    ensures x1 == x2 && y1 == y2
    decreases y1 + y2
  {
    if y1 > 0 && y2 > 0 {
      IndexInjective(width, x1, y1 - 1, x2, y2 - 1);
    }
  }

  /** Every offset below `width * height` is the offset of exactly one
      in-range cell: its column and row. */
  lemma {:induction false} IndexDecode(width: nat, height: nat, k: nat)
    requires k < width * height
    ensures 0 < width && Column(width, k) < width && Row(width, k) < height
    ensures Index(width, Column(width, k), Row(width, k)) == k
    ensures forall x: nat, y: nat :: x < width && y < height && Index(width, x, y) == k ==>
              x == Column(width, k) && y == Row(width, k)
    decreases k
  {
    if 0 < width <= k {
      assert width * height == width * (height - 1) + width;
      IndexDecode(width, height - 1, k - width);
    }
    forall x: nat, y: nat | x < width && y < height && Index(width, x, y) == k
      ensures x == Column(width, k) && y == Row(width, k)
    {
      IndexInjective(width, x, y, Column(width, k), Row(width, k));
    }
  }

  /** The cell an offset below `width * height` belongs to. */
  function Decode(width: nat, height: nat, k: nat): (p: (nat, nat))
    requires k < width * height
    ensures p.0 < width && p.1 < height && Index(width, p.0, p.1) == k
  {
    IndexDecode(width, height, k);
    (Column(width, k), Row(width, k))
  }

  /** Column and row recover the cell an offset was computed from. */
  lemma IndexRoundTrip(width: nat, height: nat, x: nat, y: nat)
    requires x < width && y < height
    ensures Index(width, x, y) < width * height
    ensures Column(width, Index(width, x, y)) == x && Row(width, Index(width, x, y)) == y
  {
    var k := Index(width, x, y);
    IndexInBounds(width, height, x, y);
    IndexDecode(width, height, k);
    IndexInjective(width, x, y, Column(width, k), Row(width, k));
  }

  /** Every cell of a `gx` by `gy` range appears in `ids`. */
  ghost predicate CoversRange(ids: seq<(nat, nat)>, gx: nat, gy: nat)
  {
    forall x: nat, y: nat :: x < gx && y < gy ==> (x, y) in ids
  }

  /** The work items of a launch with global size `gx` by `gy`, one per
      cell, listed row after row (any other listing order gives the same
      result; see the order-independence lemmas of the kernels). */
  function NDRange(gx: nat, gy: nat): (ids: seq<(nat, nat)>)
    ensures forall n :: 0 <= n < |ids| ==> ids[n].0 < gx && ids[n].1 < gy
    ensures CoversRange(ids, gx, gy)
    decreases gy
  {
    if gy == 0 then []
    else
      var row := seq(gx, x requires 0 <= x < gx => (x, gy - 1));
      var earlier := NDRange(gx, gy - 1);
      var ids := earlier + row;
      assert CoversRange(ids, gx, gy) by {
        forall x: nat, y: nat | x < gx && y < gy ensures (x, y) in ids {
          if y < gy - 1 {
            assert (x, y) in earlier;
          } else {
            assert row[x] == (x, y);
          }
        }
      }
      ids
  }
}

=== FILE: life.dfy ===
/** Conway's Game of Life on a width-by-height torus, as the `GOL` kernel
    computes it: each work item sums the 3x3 window around its cell with
    wrapped coordinates, subtracts the cell itself and applies the
    birth/survival rule, writing only its own cell of the output buffer. */
module Life {
  import opened Grid2D
  import opened Scatter

  /** One cell of the automaton: 0 is dead, 1 is alive. */
  type Bit = b: int | 0 <= b <= 1

  /** A generation, stored row-major. */
  type Grid = seq<Bit>

  predicate Shaped(g: Grid, width: nat, height: nat)
  {
    |g| == width * height
  }

  /** The cell in column `x`, row `y`. */
  function Cell(g: Grid, width: nat, height: nat, x: nat, y: nat): Bit
    requires Shaped(g, width, height) && x < width && y < height
  {
    IndexInBounds(width, height, x, y);
    g[Index(width, x, y)]
  }

  /** `a % n` is `a - q * n` when `a` lies in the q-th block of `n` values. */
  lemma ModUnique(a: int, n: int, q: int)
    requires n > 0 && q * n <= a < q * n + n
    ensures a % n == a - q * n
  {
    var d := a / n;
    assert a == d * n + a % n;
    if d > q {
      MulMonotone(q + 1, d, n);
    } else if d < q {
      MulMonotone(d + 1, q, n);
    }
  }

  /** The `%` of OpenCL C, which truncates toward zero like C's: the
      remainder takes the sign of the dividend. */
  function CRem(a: int, n: int): int
    requires n > 0
  {
    if a >= 0 then a % n else -((-a) % n)
  }

  /** The kernel's wrapped coordinate `(v + n) % n`, for a coordinate at
      most one step outside [0, n): one before the first row (column) is
      the last one, one past the last is the first, and every other
      coordinate is itself. `WrapIsRemainder` shows that this is what the
      kernel's expression computes. */
  function Wrap(v: int, n: int): (r: int)
    requires n > 0 && -1 <= v <= n
    ensures 0 <= r < n
  {
    if v == -1 then n - 1 else if v == n then 0 else v
  }

  /** The wrapped coordinate is C's remainder of `v + n` by `n`, and it is
      `v` modulo `n`. */
  lemma WrapIsRemainder(v: int, n: int)
    requires n > 0 && -1 <= v <= n
    ensures Wrap(v, n) == CRem(v + n, n)
    ensures Wrap(v, n) == v % n
  {
    if v == -1 {
      ModUnique(n - 1, n, 0);
      ModUnique(-1, n, -1);
    } else if v == n {
      ModUnique(2 * n, n, 2);
      ModUnique(n, n, 1);
    } else {
      ModUnique(v + n, n, 1);
      ModUnique(v, n, 0);
    }
  }

  /** Every read of the kernel stays inside the grid: the window
      coordinates lie at most one step outside it, and wrapping brings them
      back into range. */
  lemma ReadsInBounds(width: nat, height: nat, x: int, y: int)
    requires 0 < width && 0 < height
    requires -1 <= x <= width && -1 <= y <= height
    ensures 0 <= Wrap(x, width) < width && 0 <= Wrap(y, height) < height
    ensures Index(width, Wrap(x, width), Wrap(y, height)) < width * height
  {
    IndexInBounds(width, height, Wrap(x, width), Wrap(y, height));
  }

  /** The cell the kernel reads at window position (x, y). */
  function Read(g: Grid, width: nat, height: nat, x: int, y: int): Bit
    requires Shaped(g, width, height) && 0 < width && 0 < height
    requires -1 <= x <= width && -1 <= y <= height
  {
    Cell(g, width, height, Wrap(x, width), Wrap(y, height))
  }

  /** The inner loop of the kernel run up to `x1`: the sum of the cells read
      on window row `y` at columns x0 <= x < x1. */
  function RowSum(g: Grid, width: nat, height: nat, y: int, x0: int, x1: int): (r: int)
    requires Shaped(g, width, height) && 0 < width && 0 < height
    requires -1 <= y <= height && -1 <= x0 && x1 <= width + 1
    ensures 0 <= r && (x0 <= x1 ==> r <= x1 - x0)
    decreases x1 - x0
  {
    if x1 <= x0 then 0
    else RowSum(g, width, height, y, x0, x1 - 1) + Read(g, width, height, x1 - 1, y)
  }

  /** The outer loop of the kernel run up to `y1`: the sum of the full
      window rows y0 <= y < y1 around column `x`. */
  function WindowRows(g: Grid, width: nat, height: nat, x: nat, y0: int, y1: int): (r: int)
    requires Shaped(g, width, height) && x < width && 0 < height
    requires -1 <= y0 && y1 <= height + 1
    ensures 0 <= r && (y0 <= y1 ==> r <= 3 * (y1 - y0))
    decreases y1 - y0
  {
    if y1 <= y0 then 0
    else WindowRows(g, width, height, x, y0, y1 - 1) + RowSum(g, width, height, y1 - 1, x - 1, x + 2)
  }

  /** The kernel's `aliveNeighbors`: the wrapped 3x3 window sum minus the
      cell itself. It is the number of live cells among the eight listed
      neighbours, so it lies in 0..8 on every grid; on a grid narrower or
      lower than 3 some neighbours coincide (or are the cell itself) and are
      counted more than once. */
  function NeighbourCount(g: Grid, width: nat, height: nat, x: nat, y: nat): (n: int)
    requires Shaped(g, width, height) && x < width && y < height
    ensures n == LiveAt(g, Neighbours(width, height, x, y))
    ensures 0 <= n <= 8
  {
    CountIsNeighbours(g, width, height, x, y);
    WindowRows(g, width, height, x, y - 1, y + 2) - Cell(g, width, height, x, y)
  }

  /** The offsets of the eight neighbours, in the order the kernel reads them
      (see `Neighbours`). */
  const OffsetX: seq<int> := [-1, 0, 1, -1, 1, -1, 0, 1]
  const OffsetY: seq<int> := [-1, -1, -1, 0, 0, 1, 1, 1]

  /** The cell `dx` columns and `dy` rows away from (x, y) on the torus, as a flat offset. */
  function Around(width: nat, height: nat, x: nat, y: nat, dx: int, dy: int): (k: nat)
    requires x < width && y < height && -1 <= dx <= 1 && -1 <= dy <= 1
    ensures k < width * height
  {
    IndexInBounds(width, height, Wrap(x + dx, width), Wrap(y + dy, height));
    Index(width, Wrap(x + dx, width), Wrap(y + dy, height))
  }

  /** The eight toroidal neighbours of (x, y), as flat offsets, in the
      order the kernel reads them: the row above, the two sides, the row below. */
  function Neighbours(width: nat, height: nat, x: nat, y: nat): (ns: seq<nat>)
    requires x < width && y < height
    ensures |ns| == 8 && forall i :: 0 <= i < 8 ==> ns[i] < width * height
  {
    [Around(width, height, x, y, -1, -1), Around(width, height, x, y, 0, -1), Around(width, height, x, y, 1, -1),
     Around(width, height, x, y, -1, 0),                                      Around(width, height, x, y, 1, 0),
     Around(width, height, x, y, -1, 1),  Around(width, height, x, y, 0, 1),  Around(width, height, x, y, 1, 1)]
  }

  /** Neighbour `i` lies at offset (OffsetX[i], OffsetY[i]). */
  lemma NeighbourOffset(width: nat, height: nat, x: nat, y: nat, i: int)
    requires x < width && y < height && 0 <= i < 8
    ensures -1 <= OffsetX[i] <= 1 && -1 <= OffsetY[i] <= 1 && (OffsetX[i], OffsetY[i]) != (0, 0)
    ensures Neighbours(width, height, x, y)[i] == Around(width, height, x, y, OffsetX[i], OffsetY[i])
  {
  }

  /** Number of live cells at the offsets `ks`; an offset listed twice counts twice. */
  function LiveAt(g: Grid, ks: seq<nat>): (n: nat)
    requires forall i :: 0 <= i < |ks| ==> ks[i] < |g|
    ensures n <= |ks|
    ensures n == 0 <==> forall i :: 0 <= i < |ks| ==> g[ks[i]] == 0
  {
    if |ks| == 0 then 0
    else
      var rest := LiveAt(g, ks[1..]);
      assert forall i :: 1 <= i < |ks| ==> ks[1..][i - 1] == ks[i];
      g[ks[0]] + rest
  }

  /** One window row, read in the kernel's loop order, is the sum of three wrapped reads. */
  lemma RowIsThreeReads(g: Grid, width: nat, height: nat, x: nat, row: int)
    requires Shaped(g, width, height) && x < width && 0 < height && -1 <= row <= height
    ensures RowSum(g, width, height, row, x - 1, x + 2)
         == (Read(g, width, height, x - 1, row) as int) + Read(g, width, height, x, row) + Read(g, width, height, x + 1, row)
  {
    assert RowSum(g, width, height, row, x - 1, x - 1) == 0;
    assert RowSum(g, width, height, row, x - 1, x) == Read(g, width, height, x - 1, row);
  }

  /** The full window, read in the kernel's loop order, is the sum of its three rows. */
  lemma WindowIsThreeRows(g: Grid, width: nat, height: nat, x: nat, y: nat)
    requires Shaped(g, width, height) && x < width && y < height
    ensures WindowRows(g, width, height, x, y - 1, y + 2)
         == RowSum(g, width, height, y - 1, x - 1, x + 2) + RowSum(g, width, height, y, x - 1, x + 2)
          + RowSum(g, width, height, y + 1, x - 1, x + 2)
  {
    assert WindowRows(g, width, height, x, y - 1, y - 1) == 0;
    assert WindowRows(g, width, height, x, y - 1, y) == RowSum(g, width, height, y - 1, x - 1, x + 2);
  }

  /** `LiveAt` over eight offsets, written out. */
  lemma LiveAtEight(g: Grid, ns: seq<nat>)
    requires |ns| == 8 && forall i :: 0 <= i < 8 ==> ns[i] < |g|
    ensures LiveAt(g, ns) == (g[ns[0]] as int) + g[ns[1]] + g[ns[2]] + g[ns[3]] + g[ns[4]] + g[ns[5]] + g[ns[6]] + g[ns[7]]
  {
    assert LiveAt(g, ns[8..]) == 0;
    assert ns[7..][1..] == ns[8..];
    assert LiveAt(g, ns[7..]) == (g[ns[7]] as int);
    assert ns[6..][1..] == ns[7..];
    assert LiveAt(g, ns[6..]) == (g[ns[6]] as int) + g[ns[7]];
    assert ns[5..][1..] == ns[6..];
    assert LiveAt(g, ns[5..]) == (g[ns[5]] as int) + g[ns[6]] + g[ns[7]];
    assert ns[4..][1..] == ns[5..];
    assert LiveAt(g, ns[4..]) == (g[ns[4]] as int) + g[ns[5]] + g[ns[6]] + g[ns[7]];
    assert ns[3..][1..] == ns[4..];
    assert LiveAt(g, ns[3..]) == (g[ns[3]] as int) + g[ns[4]] + g[ns[5]] + g[ns[6]] + g[ns[7]];
    assert ns[2..][1..] == ns[3..];
    assert LiveAt(g, ns[2..]) == (g[ns[2]] as int) + g[ns[3]] + g[ns[4]] + g[ns[5]] + g[ns[6]] + g[ns[7]];
    assert ns[1..][1..] == ns[2..];
    assert LiveAt(g, ns[1..]) == (g[ns[1]] as int) + g[ns[2]] + g[ns[3]] + g[ns[4]] + g[ns[5]] + g[ns[6]] + g[ns[7]];
    assert ns[0..] == ns;
  }

  /** The window sum less the cell itself is the number of live cells
      among the eight wrapped neighbours, on every grid. */
  lemma CountIsNeighbours(g: Grid, width: nat, height: nat, x: nat, y: nat)
    requires Shaped(g, width, height) && x < width && y < height
    ensures WindowRows(g, width, height, x, y - 1, y + 2) - Cell(g, width, height, x, y)
         == LiveAt(g, Neighbours(width, height, x, y))
  {
    var ns := Neighbours(width, height, x, y);
    var a0: int, a1: int, a2: int := Read(g, width, height, x - 1, y - 1), Read(g, width, height, x, y - 1), Read(g, width, height, x + 1, y - 1);
    var b0: int, b1: int, b2: int := Read(g, width, height, x - 1, y), Read(g, width, height, x, y), Read(g, width, height, x + 1, y);
    var c0: int, c1: int, c2: int := Read(g, width, height, x - 1, y + 1), Read(g, width, height, x, y + 1), Read(g, width, height, x + 1, y + 1);
    WindowIsNineReads(g, width, height, x, y);
    assert b1 == Cell(g, width, height, x, y);
    ReadIsAround(g, width, height, x, y, -1, -1);
    ReadIsAround(g, width, height, x, y, 0, -1);
    ReadIsAround(g, width, height, x, y, 1, -1);
    ReadIsAround(g, width, height, x, y, -1, 0);
    ReadIsAround(g, width, height, x, y, 1, 0);
    ReadIsAround(g, width, height, x, y, -1, 1);
    ReadIsAround(g, width, height, x, y, 0, 1);
    ReadIsAround(g, width, height, x, y, 1, 1);
    LiveAtEight(g, ns);
    assert LiveAt(g, ns) == a0 + a1 + a2 + b0 + b2 + c0 + c1 + c2;
  }

  /** The full window is the sum of its nine wrapped reads. */
  lemma WindowIsNineReads(g: Grid, width: nat, height: nat, x: nat, y: nat)
    requires Shaped(g, width, height) && x < width && y < height
    ensures WindowRows(g, width, height, x, y - 1, y + 2)
         == (Read(g, width, height, x - 1, y - 1) as int) + Read(g, width, height, x, y - 1) + Read(g, width, height, x + 1, y - 1)
          + Read(g, width, height, x - 1, y) + Read(g, width, height, x, y) + Read(g, width, height, x + 1, y)
          + Read(g, width, height, x - 1, y + 1) + Read(g, width, height, x, y + 1) + Read(g, width, height, x + 1, y + 1)
  {
    WindowIsThreeRows(g, width, height, x, y);
    RowIsThreeReads(g, width, height, x, y - 1);
    RowIsThreeReads(g, width, height, x, y);
    RowIsThreeReads(g, width, height, x, y + 1);
  }

  /** The kernel's read at window offset (dx, dy) is the listed neighbour at that offset. */
  lemma ReadIsAround(g: Grid, width: nat, height: nat, x: nat, y: nat, dx: int, dy: int)
    requires Shaped(g, width, height) && x < width && y < height && -1 <= dx <= 1 && -1 <= dy <= 1
    ensures Read(g, width, height, x + dx, y + dy) == g[Around(width, height, x, y, dx, dy)]
  {
  }

  /** Conway's rule in its usual B3/S23 reading: a dead cell with exactly
      three live neighbours is born, a live cell with two or three survives. */
  predicate Conway(alive: bool, n: int)
  {
    if alive then n == 2 || n == 3 else n == 3
  }

  /** The kernel's update `(n == 3) || (n == 2 && in[id])`, stored as 0 or 1. */
  function Rule(n: int, cell: Bit): (r: Bit)
    ensures r == 1 <==> Conway(cell == 1, n)
  {
    if n == 3 || (n == 2 && cell != 0) then 1 else 0
  }

  /** The rule case by case: three neighbours give a live cell whatever the
      current state, two keep the current state, any other count kills. */
  lemma BirthSurvival(n: int, cell: Bit)
    ensures n == 3 ==> Rule(n, cell) == 1
    ensures n == 2 ==> Rule(n, cell) == cell
    ensures n != 2 && n != 3 ==> Rule(n, cell) == 0
  {
  }

  /** What work item (x, y) writes to its own cell. */
  function NextCell(g: Grid, width: nat, height: nat, x: nat, y: nat): (r: Bit)
    requires Shaped(g, width, height) && x < width && y < height
    ensures r == 1 <==> Conway(Cell(g, width, height, x, y) == 1, LiveAt(g, Neighbours(width, height, x, y)))
  {
    Rule(NeighbourCount(g, width, height, x, y), Cell(g, width, height, x, y))
  }

  /** The next generation of the whole grid: every cell, alive or dead,
      follows Conway's rule on the eight wrapped neighbours of its own
      position. */
  function Step(g: Grid, width: nat, height: nat): (r: Grid)
    requires Shaped(g, width, height)
    ensures Shaped(r, width, height)
    ensures forall k {:trigger Decode(width, height, k)} :: 0 <= k < |r| ==>
              (var p := Decode(width, height, k);
               r[k] == 1 <==> Conway(g[k] == 1, LiveAt(g, Neighbours(width, height, p.0, p.1))))
  {
    seq(|g|, k requires 0 <= k < |g| =>
      var p := Decode(width, height, k);
      NextCell(g, width, height, p.0, p.1))
  }

  /** Cell (x, y) of the next generation is what work item (x, y) computes. */
  lemma StepAt(g: Grid, width: nat, height: nat, x: nat, y: nat)
    requires Shaped(g, width, height) && x < width && y < height
    ensures Index(width, x, y) < width * height
    ensures Step(g, width, height)[Index(width, x, y)] == NextCell(g, width, height, x, y)
  {
    IndexRoundTrip(width, height, x, y);
  }

  /** The step applies Conway's rule to every cell, counting its eight
      toroidal neighbours. */
  lemma StepFollowsRule(g: Grid, width: nat, height: nat, x: nat, y: nat)
    requires Shaped(g, width, height) && x < width && y < height
    ensures Index(width, x, y) < width * height
    ensures var n := LiveAt(g, Neighbours(width, height, x, y));
            Step(g, width, height)[Index(width, x, y)] == 1 <==> Conway(Cell(g, width, height, x, y) == 1, n)
  {
    StepAt(g, width, height, x, y);
    CountIsNeighbours(g, width, height, x, y);
  }

  // ---------------------------------------------------------------------
  // The neighbourhood on grids of side at least 3

  /** `a` lies within one step of `b` modulo `n`. */
  predicate Adjacent(a: int, b: int, n: int)
    requires n > 0
  {
    (a - b) % n == 0 || (a - b) % n == 1 || (a - b) % n == n - 1
  }

  /** (x', y') is one of the eight cells around (x, y) on the torus. */
  predicate IsNeighbour(width: nat, height: nat, x: nat, y: nat, x': nat, y': nat)
    requires 0 < width && 0 < height
  {
    (x', y') != (x, y) && Adjacent(x', x, width) && Adjacent(y', y, height)
  }

  /** On a side of at least 3, the three wrapped coordinates around `v` are distinct. */
  lemma WrapDistinct(v: nat, n: nat, d1: int, d2: int)
    requires 3 <= n && v < n && -1 <= d1 <= 1 && -1 <= d2 <= 1
    requires Wrap(v + d1, n) == Wrap(v + d2, n)
    ensures d1 == d2
  {
  }

  /** `a` is one of the three wrapped coordinates of the window around `v`. */
  predicate InWindow(a: int, v: int, n: int)
    requires 0 <= v < n
  {
    a == Wrap(v - 1, n) || a == Wrap(v, n) || a == Wrap(v + 1, n)
  }

  /** Adjacency within a side is membership in the wrapped window. */
  lemma AdjacentIsWindow(a: nat, v: nat, n: nat)
    requires a < n && v < n
    ensures Adjacent(a, v, n) <==> InWindow(a, v, n)
  {
    var diff := a - v;
    if diff >= 0 {
      ModUnique(diff, n, 0);
    } else {
      ModUnique(diff, n, -1);
    }
  }

  /** The neighbour offsets run over the eight non-zero steps of the 3x3 window. */
  lemma OffsetsEnumerate(dx: int, dy: int)
    requires -1 <= dx <= 1 && -1 <= dy <= 1 && (dx, dy) != (0, 0)
    ensures exists i :: 0 <= i < 8 && OffsetX[i] == dx && OffsetY[i] == dy
  {
    var i := if dy == -1 then dx + 1 else if dy == 0 then (if dx == -1 then 3 else 4) else dx + 6;
    assert OffsetX[i] == dx && OffsetY[i] == dy;
  }

  /** On a torus at least 3 wide and 3 high, distinct window offsets reach distinct cells. */
  lemma AroundInjective(width: nat, height: nat, x: nat, y: nat, dx1: int, dy1: int, dx2: int, dy2: int)
    requires 3 <= width && 3 <= height && x < width && y < height
    requires -1 <= dx1 <= 1 && -1 <= dy1 <= 1 && -1 <= dx2 <= 1 && -1 <= dy2 <= 1
    requires Around(width, height, x, y, dx1, dy1) == Around(width, height, x, y, dx2, dy2)
    ensures dx1 == dx2 && dy1 == dy2
  {
    IndexInjective(width, Wrap(x + dx1, width), Wrap(y + dy1, height), Wrap(x + dx2, width), Wrap(y + dy2, height));
    WrapDistinct(x, width, dx1, dx2);
    WrapDistinct(y, height, dy1, dy2);
  }

  /** On a side of at least 3 the eight neighbour offsets are pairwise
      distinct, and none of them is the cell itself. */
  lemma NeighboursDistinct(width: nat, height: nat, x: nat, y: nat)
    requires 3 <= width && 3 <= height && x < width && y < height
    ensures var ns := Neighbours(width, height, x, y);
            forall i, j :: 0 <= i < j < 8 ==> ns[i] != ns[j]
    ensures forall i :: 0 <= i < 8 ==> Neighbours(width, height, x, y)[i] != Index(width, x, y)
  {
    var ns := Neighbours(width, height, x, y);
    forall i, j | 0 <= i < j < 8 ensures ns[i] != ns[j] {
      ListedPairDistinct(width, height, x, y, i, j);
    }
    forall i | 0 <= i < 8 ensures ns[i] != Index(width, x, y) {
      ListedNotSelf(width, height, x, y, i);
    }
  }

  /** Two different listed neighbours are different cells. */
  lemma ListedPairDistinct(width: nat, height: nat, x: nat, y: nat, i: int, j: int)
    requires 3 <= width && 3 <= height && x < width && y < height && 0 <= i < j < 8
    ensures Neighbours(width, height, x, y)[i] != Neighbours(width, height, x, y)[j]
  {
    NeighbourOffset(width, height, x, y, i);
    NeighbourOffset(width, height, x, y, j);
    if Neighbours(width, height, x, y)[i] == Neighbours(width, height, x, y)[j] {
      AroundInjective(width, height, x, y, OffsetX[i], OffsetY[i], OffsetX[j], OffsetY[j]);
      assert false;
    }
  }

  /** No listed neighbour is the cell itself. */
  lemma ListedNotSelf(width: nat, height: nat, x: nat, y: nat, i: int)
    requires 3 <= width && 3 <= height && x < width && y < height && 0 <= i < 8
    ensures Neighbours(width, height, x, y)[i] != Index(width, x, y)
  {
    NeighbourOffset(width, height, x, y, i);
    assert Index(width, x, y) == Around(width, height, x, y, 0, 0);
    if Neighbours(width, height, x, y)[i] == Index(width, x, y) {
      AroundInjective(width, height, x, y, OffsetX[i], OffsetY[i], 0, 0);
      assert false;
    }
  }

  /** The cell at a non-zero window offset is a toroidal neighbour. */
  lemma OffsetIsNeighbour(width: nat, height: nat, x: nat, y: nat, dx: int, dy: int, x': nat, y': nat)
    requires 3 <= width && 3 <= height && x < width && y < height
    requires -1 <= dx <= 1 && -1 <= dy <= 1 && (dx, dy) != (0, 0)
    requires x' == Wrap(x + dx, width) && y' == Wrap(y + dy, height)
    ensures IsNeighbour(width, height, x, y, x', y')
  {
    AdjacentIsWindow(x', x, width);
    AdjacentIsWindow(y', y, height);
    assert InWindow(x', x, width) by {
      if dx == -1 {} else if dx == 0 {} else {}
    }
    assert InWindow(y', y, height) by {
      if dy == -1 {} else if dy == 0 {} else {}
    }
    if (x', y') == (x, y) {
      WrapDistinct(x, width, dx, 0);
      WrapDistinct(y, height, dy, 0);
    }
  }

  /** Every listed neighbour is a toroidal neighbour: if the i-th cell the
      kernel reads is (x', y'), then (x', y') is adjacent to (x, y). */
  lemma ListedIsNeighbour(width: nat, height: nat, x: nat, y: nat, x': nat, y': nat, i: int)
    requires 3 <= width && 3 <= height && x < width && y < height && x' < width && y' < height
    requires 0 <= i < 8 && Neighbours(width, height, x, y)[i] == Index(width, x', y')
    ensures IsNeighbour(width, height, x, y, x', y')
  {
    NeighbourOffset(width, height, x, y, i);
    AroundDecode(width, height, x, y, OffsetX[i], OffsetY[i], x', y');
    OffsetIsNeighbour(width, height, x, y, OffsetX[i], OffsetY[i], x', y');
  }

  /** The cell at window offset (dx, dy) is the wrapped coordinate pair. */
  lemma AroundDecode(width: nat, height: nat, x: nat, y: nat, dx: int, dy: int, x': nat, y': nat)
    requires x < width && y < height && -1 <= dx <= 1 && -1 <= dy <= 1 && x' < width && y' < height
    requires Around(width, height, x, y, dx, dy) == Index(width, x', y')
    ensures x' == Wrap(x + dx, width) && y' == Wrap(y + dy, height)
  {
    IndexInjective(width, Wrap(x + dx, width), Wrap(y + dy, height), x', y');
  }

  /** Every toroidal neighbour is listed. */
  lemma NeighbourIsListed(width: nat, height: nat, x: nat, y: nat, x': nat, y': nat)
    requires x < width && y < height && x' < width && y' < height
    requires IsNeighbour(width, height, x, y, x', y')
    ensures Index(width, x', y') in Neighbours(width, height, x, y)
  {
    var ns := Neighbours(width, height, x, y);
    AdjacentIsWindow(x', x, width);
    AdjacentIsWindow(y', y, height);
    var dx := if x' == Wrap(x - 1, width) then -1 else if x' == x then 0 else 1;
    var dy := if y' == Wrap(y - 1, height) then -1 else if y' == y then 0 else 1;
    assert x' == Wrap(x + dx, width) && y' == Wrap(y + dy, height);
    if (dx, dy) == (0, 0) {
      assert false;
    }
    OffsetsEnumerate(dx, dy);
    var i :| 0 <= i < 8 && OffsetX[i] == dx && OffsetY[i] == dy;
    NeighbourOffset(width, height, x, y, i);
    assert ns[i] == Index(width, x', y');
  }

  /** On a torus at least 3 wide and 3 high the kernel counts each of the
      eight neighbours exactly once: the eight offsets are distinct, none
      is the cell itself, and they are exactly the toroidal neighbours. */
  lemma ExactNeighbourhood(width: nat, height: nat, x: nat, y: nat)
    requires 3 <= width && 3 <= height && x < width && y < height
    ensures var ns := Neighbours(width, height, x, y);
            forall i, j :: 0 <= i < j < 8 ==> ns[i] != ns[j]
    ensures forall i :: 0 <= i < 8 ==> Neighbours(width, height, x, y)[i] != Index(width, x, y)
    ensures forall x': nat, y': nat :: x' < width && y' < height ==>
              (IsNeighbour(width, height, x, y, x', y') <==> Index(width, x', y') in Neighbours(width, height, x, y))
  {
    NeighboursDistinct(width, height, x, y);
    forall x': nat, y': nat | x' < width && y' < height
      ensures IsNeighbour(width, height, x, y, x', y') <==> Index(width, x', y') in Neighbours(width, height, x, y)
    {
      if IsNeighbour(width, height, x, y, x', y') {
        NeighbourIsListed(width, height, x, y, x', y');
      }
      if Index(width, x', y') in Neighbours(width, height, x, y) {
        var i :| 0 <= i < 8 && Neighbours(width, height, x, y)[i] == Index(width, x', y');
        ListedIsNeighbour(width, height, x, y, x', y', i);
      }
    }
  }

  /** A cell none of whose eight neighbours is alive is dead in the next
      generation, whatever its own state. */
  lemma IsolatedCellDies(g: Grid, width: nat, height: nat, x: nat, y: nat)
    requires Shaped(g, width, height) && 3 <= width && 3 <= height && x < width && y < height
    requires forall x': nat, y': nat :: x' < width && y' < height && IsNeighbour(width, height, x, y, x', y') ==>
               Cell(g, width, height, x', y') == 0
    ensures Index(width, x, y) < width * height
    ensures Step(g, width, height)[Index(width, x, y)] == 0
  {
    forall i | 0 <= i < 8 ensures g[Neighbours(width, height, x, y)[i]] == 0 {
      ListedDead(g, width, height, x, y, i);
    }
    NoLiveNeighbourDies(g, width, height, x, y);
  }

  /** Listed neighbour `i` is the cell at window offset i. */
  lemma ListedCell(g: Grid, width: nat, height: nat, x: nat, y: nat, i: int)
    requires Shaped(g, width, height) && x < width && y < height && 0 <= i < 8
    ensures -1 <= OffsetX[i] <= 1 && -1 <= OffsetY[i] <= 1 && (OffsetX[i], OffsetY[i]) != (0, 0)
    ensures g[Neighbours(width, height, x, y)[i]] ==
              Cell(g, width, height, Wrap(x + OffsetX[i], width), Wrap(y + OffsetY[i], height))
  {
    NeighbourOffset(width, height, x, y, i);
  }

  /** Around a cell whose toroidal neighbours are all dead, every listed neighbour is dead. */
  lemma ListedDead(g: Grid, width: nat, height: nat, x: nat, y: nat, i: int)
    requires Shaped(g, width, height) && 3 <= width && 3 <= height && x < width && y < height && 0 <= i < 8
    requires forall x': nat, y': nat :: x' < width && y' < height && IsNeighbour(width, height, x, y, x', y') ==>
               Cell(g, width, height, x', y') == 0
    ensures g[Neighbours(width, height, x, y)[i]] == 0
  {
    ListedCell(g, width, height, x, y, i);
    var x', y' := Wrap(x + OffsetX[i], width), Wrap(y + OffsetY[i], height);
    OffsetIsNeighbour(width, height, x, y, OffsetX[i], OffsetY[i], x', y');
    DeadNeighbour(g, width, height, x, y, x', y');
  }

  /** A neighbour of a cell whose neighbours are all dead is dead. */
  lemma DeadNeighbour(g: Grid, width: nat, height: nat, x: nat, y: nat, x': nat, y': nat)
    requires Shaped(g, width, height) && 0 < width && 0 < height && x' < width && y' < height
    requires IsNeighbour(width, height, x, y, x', y')
    requires forall x': nat, y': nat :: x' < width && y' < height && IsNeighbour(width, height, x, y, x', y') ==>
               Cell(g, width, height, x', y') == 0
    ensures Cell(g, width, height, x', y') == 0
  {
  }

  /** A cell whose eight listed neighbours are all dead is dead next. */
  lemma NoLiveNeighbourDies(g: Grid, width: nat, height: nat, x: nat, y: nat)
    requires Shaped(g, width, height) && x < width && y < height
    requires forall i :: 0 <= i < 8 ==> g[Neighbours(width, height, x, y)[i]] == 0
    ensures Index(width, x, y) < width * height
    ensures Step(g, width, height)[Index(width, x, y)] == 0
  {
    assert LiveAt(g, Neighbours(width, height, x, y)) == 0;
    StepFollowsRule(g, width, height, x, y);
  }

  /** On a 1x1 torus every window position wraps onto the one cell, so the
      kernel counts that cell eight times as its own neighbour. */
  lemma SingleCellCountsItself(g: Grid, width: nat, height: nat)
    requires width == 1 && height == 1 && Shaped(g, width, height)
    ensures NeighbourCount(g, width, height, 0, 0) == 8 * (g[0] as int)
  {
    var c := g[0] as int;
    forall dx, dy | -1 <= dx <= 1 && -1 <= dy <= 1 ensures Read(g, width, height, dx, dy) == c {
      assert Wrap(dx, width) == 0 && Wrap(dy, height) == 0;
    }
    WindowIsThreeRows(g, width, height, 0, 0);
    RowIsThreeReads(g, width, height, 0, -1);
    RowIsThreeReads(g, width, height, 0, 0);
    RowIsThreeReads(g, width, height, 0, 1);
    assert WindowRows(g, width, height, 0, -1, 2) == 9 * c;
    assert Cell(g, width, height, 0, 0) == c;
  }

  // ---------------------------------------------------------------------
  // The launch: every work item writes its own cell

  /** The inner loop of the kernel for window row `wy`: adds the three
      wrapped cells of that row to the accumulator. */
  method AddWindowRow(input: Grid, width: nat, height: nat, x: nat, wy: int, acc: int)
    returns (alive: int)
    requires Shaped(input, width, height) && x < width && 0 < height && -1 <= wy <= height
    ensures alive == acc + RowSum(input, width, height, wy, x - 1, x + 2)
    ensures acc <= alive <= acc + 3
  {
    alive := acc;
    var wx := x - 1;
    while wx <= x + 1
      invariant x - 1 <= wx <= x + 2
      invariant alive == acc + RowSum(input, width, height, wy, x - 1, wx)
      invariant acc <= alive <= acc + (wx - x + 1)
    {
      var row := CRem(wy + height, height);
      var col := CRem(wx + width, width);
      KernelRead(input, width, height, wx, wy, col, row);
      assert RowSum(input, width, height, wy, x - 1, wx + 1)
          == RowSum(input, width, height, wy, x - 1, wx) + Read(input, width, height, wx, wy);
      alive := alive + input[Index(width, col, row)];
      wx := wx + 1;
    }
  }

  /** The kernel's `in[row * width + col]`, with `row` and `col` computed by
      C's `%`, is the wrapped read at window position (wx, wy). */
  lemma KernelRead(input: Grid, width: nat, height: nat, wx: int, wy: int, col: int, row: int)
    requires Shaped(input, width, height) && 0 < width && 0 < height
    requires -1 <= wx <= width && -1 <= wy <= height
    requires col == CRem(wx + width, width) && row == CRem(wy + height, height)
    ensures 0 <= col < width && 0 <= row < height
    ensures Index(width, col, row) < |input| && input[Index(width, col, row)] == Read(input, width, height, wx, wy)
  {
    WrapIsRemainder(wy, height);
    WrapIsRemainder(wx, width);
    ReadsInBounds(width, height, wx, wy);
  }

  /** One work item of the kernel, statement by statement: the two loops
      over the wrapped window, the subtraction of the cell itself and the
      store of the rule's verdict into its own slot, which is that cell of
      the next generation. Items outside the grid store nothing. The
      accumulator never leaves 0..9, so the kernel's `char` cannot overflow. */
  method RunWorkItem(input: Grid, width: nat, height: nat, x: nat, y: nat, output: seq<Bit>)
    returns (result: seq<Bit>)
    requires Shaped(input, width, height) && |output| == width * height
    ensures x < width && y < height ==>
              Index(width, x, y) < |output| &&
              result == output[Index(width, x, y) := Rule(LiveAt(input, Neighbours(width, height, x, y)),
                                                          Cell(input, width, height, x, y))]
    ensures x < width && y < height ==>
              Index(width, x, y) < |output| &&
              result == output[Index(width, x, y) := Step(input, width, height)[Index(width, x, y)]]
    ensures !(x < width && y < height) ==> result == output
  {
    result := output;
    if x < width && y < height {
      var alive := 0;
      var wy := y - 1;
      while wy <= y + 1
        invariant y - 1 <= wy <= y + 2
        invariant alive == WindowRows(input, width, height, x, y - 1, wy)
        invariant 0 <= alive <= 3 * (wy - y + 1)
      {
        assert WindowRows(input, width, height, x, y - 1, wy + 1)
            == WindowRows(input, width, height, x, y - 1, wy) + RowSum(input, width, height, wy, x - 1, x + 2);
        alive := AddWindowRow(input, width, height, x, wy, alive);
        wy := wy + 1;
      }
      IndexInBounds(width, height, x, y);
      var id := Index(width, x, y);
      alive := alive - input[id];
      result := output[id := if alive == 3 || (alive == 2 && input[id] != 0) then 1 else 0];
      KernelVerdict(input, width, height, x, y);
    }
  }

  /** The kernel's final statements, the window sum less the cell itself
      fed to `(n == 3) || (n == 2 && in[id])`, give the rule's verdict on
      the cell's eight neighbours, which is that cell of the next generation. */
  lemma KernelVerdict(input: Grid, width: nat, height: nat, x: nat, y: nat)
    requires Shaped(input, width, height) && x < width && y < height
    ensures Index(width, x, y) < |input|
    ensures (var id := Index(width, x, y);
             var alive := WindowRows(input, width, height, x, y - 1, y + 2) - input[id];
             (if alive == 3 || (alive == 2 && input[id] != 0) then 1 else 0)
               == Rule(LiveAt(input, Neighbours(width, height, x, y)), Cell(input, width, height, x, y)))
    ensures Rule(LiveAt(input, Neighbours(width, height, x, y)), Cell(input, width, height, x, y))
         == Step(input, width, height)[Index(width, x, y)]
  {
    IndexInBounds(width, height, x, y);
    var id := Index(width, x, y);
    assert input[id] == Cell(input, width, height, x, y);
    CountIsNeighbours(input, width, height, x, y);
    StepAt(input, width, height, x, y);
  }

  /** The writes of work item (x, y): one write to its own cell when the
      item lies inside the grid, none otherwise. */
  function ItemWrites(g: Grid, width: nat, height: nat, x: nat, y: nat): (ws: seq<Write<Bit>>)
    requires Shaped(g, width, height)
    ensures |ws| == (if x < width && y < height then 1 else 0)
    ensures |ws| == 1 ==> ws[0].index == Index(width, x, y) && ws[0].index < width * height &&
                          ws[0].value == Step(g, width, height)[ws[0].index]
  {
    if x < width && y < height then
      StepAt(g, width, height, x, y);
      [Write(Index(width, x, y), NextCell(g, width, height, x, y))]
    else []
  }

  /** The writes of a launch over the work items `ids`, item after item. */
  function LaunchWrites(g: Grid, width: nat, height: nat, ids: seq<(nat, nat)>): (ws: seq<Write<Bit>>)
    requires Shaped(g, width, height)
    ensures InBounds(ws, width * height)
    ensures forall t :: 0 <= t < |ws| ==> ws[t].value == Step(g, width, height)[ws[t].index]
    ensures forall x: nat, y: nat :: x < width && y < height && (x, y) in ids ==> Targets(ws, Index(width, x, y))
    decreases |ids|
  {
    if |ids| == 0 then []
    else
      var first := ItemWrites(g, width, height, ids[0].0, ids[0].1);
      var rest := LaunchWrites(g, width, height, ids[1..]);
      LaunchPrepend(width, height, ids, first, rest, Step(g, width, height));
      first + rest
  }

  /** The writes of the first work item, followed by those of the others,
      keep the properties of a launch's writes: in bounds, carrying only
      values of the reference generation `ref`, and reaching every listed cell. */
  lemma LaunchPrepend(width: nat, height: nat, ids: seq<(nat, nat)>, first: seq<Write<Bit>>, rest: seq<Write<Bit>>, ref: seq<Bit>)
    requires |ids| > 0 && |ref| == width * height
    requires InBounds(first, width * height) && forall t :: 0 <= t < |first| ==> first[t].value == ref[first[t].index]
    requires ids[0].0 < width && ids[0].1 < height ==> |first| > 0 && first[0].index == Index(width, ids[0].0, ids[0].1)
    requires InBounds(rest, width * height) && forall t :: 0 <= t < |rest| ==> rest[t].value == ref[rest[t].index]
    requires forall x: nat, y: nat :: x < width && y < height && (x, y) in ids[1..] ==> Targets(rest, Index(width, x, y))
    ensures InBounds(first + rest, width * height)
    ensures forall t :: 0 <= t < |first + rest| ==> (first + rest)[t].value == ref[(first + rest)[t].index]
    ensures forall x: nat, y: nat :: x < width && y < height && (x, y) in ids ==> Targets(first + rest, Index(width, x, y))
  {
    forall t | 0 <= t < |first + rest|
      ensures (first + rest)[t].index < width * height
      ensures (first + rest)[t].value == ref[(first + rest)[t].index]
    {
      if t < |first| {
        assert (first + rest)[t] == first[t];
      } else {
        assert (first + rest)[t] == rest[t - |first|];
      }
    }
    forall x: nat, y: nat | x < width && y < height && (x, y) in ids
      ensures Targets(first + rest, Index(width, x, y))
    {
      TargetsConcat(first, rest, Index(width, x, y));
      if (x, y) == ids[0] {
        assert first[0].index == Index(width, x, y);
      } else {
        assert (x, y) in ids[1..];
      }
    }
  }

  /** Launching the kernel over any listing of the work items that covers
      the grid leaves exactly the next generation in the output buffer,
      whatever the buffer held before and in whatever order the items run:
      every item writes only its own cell, and only from the input. */
  lemma LaunchComputesStep(g: Grid, out: seq<Bit>, width: nat, height: nat, ids: seq<(nat, nat)>)
    requires Shaped(g, width, height) && |out| == width * height
    requires CoversRange(ids, width, height)
    ensures Apply(out, LaunchWrites(g, width, height, ids)) == Step(g, width, height)
  {
    var ws := LaunchWrites(g, width, height, ids);
    var next := Step(g, width, height);
    ApplyDetermined(out, ws, next);
    forall k | 0 <= k < |out| ensures Apply(out, ws)[k] == next[k] {
      IndexDecode(width, height, k);
      assert (Column(width, k), Row(width, k)) in ids;
      assert Targets(ws, Index(width, Column(width, k), Row(width, k)));
    }
  }

  // ---------------------------------------------------------------------
  // Known patterns

  function Ind(b: bool): nat
  {
    if b then 1 else 0
  }

  /** The live cells of `g` are exactly those whose column is in `cols` and whose row is in `rows`. */
  ghost predicate IsRect(g: Grid, width: nat, height: nat, cols: set<int>, rows: set<int>)
  {
    Shaped(g, width, height) &&
    forall x: nat, y: nat :: x < width && y < height ==>
      Cell(g, width, height, x, y) == Ind(x in cols && y in rows)
  }

  /** How many of the three wrapped coordinates around `v` lie in `s`. */
  function Hits(s: set<int>, v: nat, n: nat): nat
    requires v < n
  {
    Ind(Wrap(v - 1, n) in s) + Ind(v in s) + Ind(Wrap(v + 1, n) in s)
  }

  /** On a rectangular pattern a window row holds the row's indicator times the column hits. */
  lemma RectRow(g: Grid, width: nat, height: nat, cols: set<int>, rows: set<int>, x: nat, row: int)
    requires IsRect(g, width, height, cols, rows) && x < width && 0 < height && -1 <= row <= height
    ensures RowSum(g, width, height, row, x - 1, x + 2) == Ind(Wrap(row, height) in rows) * Hits(cols, x, width)
  {
    RowIsThreeReads(g, width, height, x, row);
    var r := Wrap(row, height);
    assert Read(g, width, height, x - 1, row) == Ind(Wrap(x - 1, width) in cols && r in rows);
    assert Read(g, width, height, x, row) == Ind(x in cols && r in rows);
    assert Read(g, width, height, x + 1, row) == Ind(Wrap(x + 1, width) in cols && r in rows);
    if r in rows {
      assert Ind(r in rows) * Hits(cols, x, width) == Hits(cols, x, width);
    }
  }

  /** On a rectangular pattern the neighbour count factors into row hits
      times column hits, less the cell itself. */
  lemma RectCount(g: Grid, width: nat, height: nat, cols: set<int>, rows: set<int>, x: nat, y: nat)
    requires IsRect(g, width, height, cols, rows) && x < width && y < height
    ensures NeighbourCount(g, width, height, x, y) == Hits(rows, y, height) * Hits(cols, x, width) - Ind(x in cols && y in rows)
  {
    RectWindow(g, width, height, cols, rows, x, y);
    assert Cell(g, width, height, x, y) == Ind(x in cols && y in rows);
  }

  /** On a rectangular pattern the window sum is row hits times column hits. */
  lemma RectWindow(g: Grid, width: nat, height: nat, cols: set<int>, rows: set<int>, x: nat, y: nat)
    requires IsRect(g, width, height, cols, rows) && x < width && y < height
    ensures WindowRows(g, width, height, x, y - 1, y + 2) == Hits(rows, y, height) * Hits(cols, x, width)
  {
    WindowIsThreeRows(g, width, height, x, y);
    RectRow(g, width, height, cols, rows, x, y - 1);
    RectRow(g, width, height, cols, rows, x, y);
    RectRow(g, width, height, cols, rows, x, y + 1);
    var c := Hits(cols, x, width);
    var a, b, d := Ind(Wrap(y - 1, height) in rows), Ind(y in rows), Ind(Wrap(y + 1, height) in rows);
    assert Wrap(y, height) == y;
    assert Hits(rows, y, height) == a + b + d;
    assert WindowRows(g, width, height, x, y - 1, y + 2) == a * c + b * c + d * c;
    SumTimes(a, b, d, c);
  }

  lemma SumTimes(a: int, b: int, d: int, c: int)
    ensures a * c + b * c + d * c == (a + b + d) * c
  {
  }

  /** Around a 2x2 block on a side of at least 4: a coordinate of the block
      sees both block coordinates in its window, any other sees at most one. */
  lemma PairHits(a: nat, v: nat, n: nat)
    requires 4 <= n && a < n && v < n
    ensures v in {a, Wrap(a + 1, n)} ==> Hits({a, Wrap(a + 1, n)}, v, n) == 2
    ensures v !in {a, Wrap(a + 1, n)} ==> Hits({a, Wrap(a + 1, n)}, v, n) <= 1
  {
  }

  /** Around a single coordinate on a side of at least 3, every window sees it at most once. */
  lemma SingleHits(a: nat, v: nat, n: nat)
    requires 3 <= n && a < n && v < n
    ensures Hits({a}, v, n) <= 1
  {
  }

  /** Every cell of the next generation is determined cell by cell. */
  lemma StepExtensional(g: Grid, width: nat, height: nat, h: Grid)
    requires Shaped(g, width, height) && Shaped(h, width, height)
    requires forall x: nat, y: nat :: x < width && y < height ==>
               Cell(Step(g, width, height), width, height, x, y) == Cell(h, width, height, x, y)
    ensures Step(g, width, height) == h
  {
    forall k | 0 <= k < |h| ensures Step(g, width, height)[k] == h[k] {
      IndexDecode(width, height, k);
      var x: nat, y: nat := Column(width, k), Row(width, k);
      assert Index(width, x, y) == k;
      assert Cell(Step(g, width, height), width, height, x, y) == Cell(h, width, height, x, y);
    }
  }

  /** Products of window hit counts: both full gives four, otherwise at most two. */
  lemma HitProduct(hx: nat, hy: nat)
    requires hx <= 2 && hy <= 2
    ensures hx == 2 && hy == 2 ==> hy * hx == 4
    ensures hx <= 1 || hy <= 1 ==> hy * hx <= 2
  {
    if hx <= 1 { MulMonotone(hx, 1, hy); } else if hy <= 1 { MulMonotone(hy, 1, hx); }
  }

  /** Inside or around a 2x2 block every cell keeps its state: a block cell
      has three live neighbours, any other cell at most two. */
  lemma BlockCell(g: Grid, width: nat, height: nat, x0: nat, y0: nat, x: nat, y: nat)
    requires 4 <= width && 4 <= height && x0 < width && y0 < height && x < width && y < height
    requires IsRect(g, width, height, {x0, Wrap(x0 + 1, width)}, {y0, Wrap(y0 + 1, height)})
    ensures NextCell(g, width, height, x, y) == Cell(g, width, height, x, y)
  {
    var cols, rows := {x0, Wrap(x0 + 1, width)}, {y0, Wrap(y0 + 1, height)};
    RectCount(g, width, height, cols, rows, x, y);
    PairHits(x0, x, width);
    PairHits(y0, y, height);
    HitProduct(Hits(cols, x, width), Hits(rows, y, height));
  }

  /** A 2x2 block of live cells on an otherwise dead torus at least 4 wide
      and 4 high is a still life: the next generation equals the current one. */
  lemma BlockIsStillLife(g: Grid, width: nat, height: nat, x0: nat, y0: nat)
    requires 4 <= width && 4 <= height && x0 < width && y0 < height
    requires IsRect(g, width, height, {x0, Wrap(x0 + 1, width)}, {y0, Wrap(y0 + 1, height)})
    ensures Step(g, width, height) == g
  {
    forall x: nat, y: nat | x < width && y < height
      ensures Cell(Step(g, width, height), width, height, x, y) == Cell(g, width, height, x, y)
    {
      StepAt(g, width, height, x, y);
      BlockCell(g, width, height, x0, y0, x, y);
    }
    StepExtensional(g, width, height, g);
  }

  /** Around a single live cell on a side of at least 3 no cell has more
      than one live neighbour, so every cell is dead next. */
  lemma LoneCell(g: Grid, width: nat, height: nat, x0: nat, y0: nat, x: nat, y: nat)
    requires 3 <= width && 3 <= height && x0 < width && y0 < height && x < width && y < height
    requires IsRect(g, width, height, {x0}, {y0})
    ensures NextCell(g, width, height, x, y) == 0
  {
    RectCount(g, width, height, {x0}, {y0}, x, y);
    SingleHits(x0, x, width);
    SingleHits(y0, y, height);
    HitProduct(Hits({x0}, x, width), Hits({y0}, y, height));
  }

  /** A single live cell on a torus at least 3 wide and 3 high dies and
      leaves the whole grid dead; the 3x3 torus with only its centre alive
      is one instance. */
  lemma LoneCellDies(g: Grid, width: nat, height: nat, x0: nat, y0: nat)
    requires 3 <= width && 3 <= height && x0 < width && y0 < height
    requires IsRect(g, width, height, {x0}, {y0})
    ensures forall k :: 0 <= k < |g| ==> Step(g, width, height)[k] == 0
  {
    forall k | 0 <= k < |g| ensures Step(g, width, height)[k] == 0 {
      IndexDecode(width, height, k);
      var x, y := Column(width, k), Row(width, k);
      StepAt(g, width, height, x, y);
      LoneCell(g, width, height, x0, y0, x, y);
    }
  }
}

=== FILE: life_host.dfy ===
/** The host side of the Game of Life demo: the two device buffers the
    kernel alternates between, the host copy read back after every launch,
    the image painted from it, and the run/pause switch driven by the
    keyboard. Every OpenCL call is taken to succeed. */
module LifeHost {
  import opened Grid2D
  import opened Scatter
  import opened Life

  /** The colour of an image pixel: live cells green (0.22, 1.0, 0.08),
      everything else black (0, 0, 0). */
  datatype Colour = LiveGreen | Black

  /** A key code as the windowing toolkit delivers it: an unsigned char. */
  type Key = k: int | 0 <= k < 256

  const Escape: Key := 27
  const Space: Key := 32
  const UpperR: Key := 82
  const LowerR: Key := 114

  /** The program's state between callbacks. */
  datatype Host = Host(width: nat, height: nat,
                       bufferIn: Grid, bufferOut: Grid,
                       hostBuffer: Grid, image: seq<Colour>,
                       isRunning: bool)

  /** All buffers hold one entry per cell of the screen. */
  predicate Valid(s: Host)
  {
    Shaped(s.bufferIn, s.width, s.height) && Shaped(s.bufferOut, s.width, s.height) &&
    Shaped(s.hostBuffer, s.width, s.height) && |s.image| == s.width * s.height
  }

  /** The colour of one cell. */
  function Shade(b: Bit): Colour
  {
    if b == 1 then LiveGreen else Black
  }

  /** The image painted from a host buffer, pixel by pixel. */
  function Paint(cells: Grid): (image: seq<Colour>)
    ensures |image| == |cells|
    ensures forall i :: 0 <= i < |cells| ==> (image[i] == LiveGreen <==> cells[i] == 1)
  {
    seq(|cells|, i requires 0 <= i < |cells| => Shade(cells[i]))
  }

  /** The cell a pixel colour stands for. */
  function Unshade(c: Colour): Bit
  {
    if c == LiveGreen then 1 else 0
  }

  /** The image shows the generation faithfully: a pixel is green exactly
      when its cell is alive, so the generation can be read back off it. */
  lemma PaintShowsCells(cells: Grid)
    ensures forall i :: 0 <= i < |cells| ==> (Paint(cells)[i] == LiveGreen <==> cells[i] == 1)
    ensures forall i :: 0 <= i < |cells| ==> Unshade(Paint(cells)[i]) == cells[i]
  {
  }

  /** The colouring loop of the host, index by index, into the existing image. */
  method PaintImage(hostBuffer: Grid, image: seq<Colour>) returns (result: seq<Colour>)
    requires |image| == |hostBuffer|
    ensures result == Paint(hostBuffer)
  {
    result := image;
    var i := 0;
    while i < |hostBuffer|
      invariant 0 <= i <= |hostBuffer| && |result| == |hostBuffer|
      invariant forall j :: 0 <= j < i ==> result[j] == Shade(hostBuffer[j])
    {
      result := result[i := if hostBuffer[i] == 1 then LiveGreen else Black];
      i := i + 1;
    }
  }

  /** One simulation step: launch the kernel from `bufferIn` into
      `bufferOut` over the whole screen, read the result back into the host
      buffer, swap the two device buffers and repaint the image. */
  function RunOpenCL(s: Host): (r: Host)
    requires Valid(s)
    ensures Valid(r)
    ensures r.width == s.width && r.height == s.height && r.isRunning == s.isRunning
    ensures r.bufferIn == Step(s.bufferIn, s.width, s.height)
    ensures r.bufferOut == s.bufferIn
    ensures r.hostBuffer == r.bufferIn
    ensures forall i :: 0 <= i < |r.image| ==> (r.image[i] == LiveGreen <==> r.bufferIn[i] == 1)
  {
    var ids := NDRange(s.width, s.height);
    var out := Apply(s.bufferOut, LaunchWrites(s.bufferIn, s.width, s.height, ids));
    LaunchComputesStep(s.bufferIn, s.bufferOut, s.width, s.height, ids);
    var hostBuffer := out;
    var (bufferIn, bufferOut) := (out, s.bufferIn);
    PaintShowsCells(hostBuffer);
    s.(bufferIn := bufferIn, bufferOut := bufferOut, hostBuffer := hostBuffer, image := Paint(hostBuffer))
  }

  /** The idle callback: one step while running, nothing while paused. */
  function Idle(s: Host): (r: Host)
    requires Valid(s)
    ensures Valid(r) && r.isRunning == s.isRunning
    ensures !s.isRunning ==> r == s
    ensures s.isRunning ==> r.bufferIn == Step(s.bufferIn, s.width, s.height) && r.bufferOut == s.bufferIn
  {
    if s.isRunning then RunOpenCL(s) else s
  }

  /** What a key release leads to: the program goes on in a new state, or exits. */
  datatype Outcome = Continue(host: Host) | Quit(status: int)

  /** The key-release callback. Escape exits with status 0, space toggles
      running, 'R' or 'r' reseeds the input buffer and the host buffer with
      `seed` (a fresh random 0/1 grid), every other key changes nothing. */
  function KeyUp(s: Host, key: Key, seed: Grid): (o: Outcome)
    requires Valid(s) && Shaped(seed, s.width, s.height)
    ensures o.Quit? <==> key == Escape
    ensures o.Quit? ==> o.status == 0
    ensures o.Continue? ==> Valid(o.host) && o.host.width == s.width && o.host.height == s.height
    ensures o.Continue? ==> (o.host.isRunning <==> (s.isRunning <==> key != Space))
    ensures key == UpperR || key == LowerR ==> o == Continue(s.(bufferIn := seed, hostBuffer := seed))
    ensures key != Escape && key != UpperR && key != LowerR ==> o.Continue? && o.host.(isRunning := s.isRunning) == s
  {
    if key == Escape then Quit(0)
    else if key == Space then Continue(s.(isRunning := !s.isRunning))
    else if key == UpperR || key == LowerR then Continue(s.(bufferIn := seed, hostBuffer := seed))
    else Continue(s)
  }

  /** `n` idle callbacks in a row. */
  function Ticks(s: Host, n: nat): (r: Host)
    requires Valid(s)
    ensures Valid(r) && r.width == s.width && r.height == s.height && r.isRunning == s.isRunning
    decreases n
  {
    if n == 0 then s else Ticks(Idle(s), n - 1)
  }

  /** `n` generations. */
  function Generations(g: Grid, width: nat, height: nat, n: nat): (r: Grid)
    requires Shaped(g, width, height)
    ensures Shaped(r, width, height)
    decreases n
  {
    if n == 0 then g else Generations(Step(g, width, height), width, height, n - 1)
  }

  /** While paused, idle callbacks change nothing at all. */
  lemma {:induction false} PausedTicksChangeNothing(s: Host, n: nat)
    requires Valid(s) && !s.isRunning
    ensures Ticks(s, n) == s
  {
    if n > 0 {
      PausedTicksChangeNothing(Idle(s), n - 1);
    }
  }

  /** While running, `n` idle callbacks advance the input buffer by `n`
      generations; after at least one, the host buffer holds the latest
      generation, the image shows it and the output buffer holds the one before. */
  lemma {:induction false} RunningTicksAdvance(s: Host, n: nat)
    requires Valid(s) && s.isRunning
    ensures Ticks(s, n).bufferIn == Generations(s.bufferIn, s.width, s.height, n)
    ensures n > 0 ==> Ticks(s, n).bufferOut == Generations(s.bufferIn, s.width, s.height, n - 1)
    ensures n > 0 ==> Ticks(s, n).hostBuffer == Ticks(s, n).bufferIn
    ensures n > 0 ==> forall i :: 0 <= i < |Ticks(s, n).image| ==>
              (Ticks(s, n).image[i] == LiveGreen <==> Ticks(s, n).bufferIn[i] == 1)
    decreases n
  {
    if n > 0 {
      var t := Idle(s);
      RunningTicksAdvance(t, n - 1);
      if n == 1 {
        assert Ticks(s, n) == t;
      }
    }
  }

  /** Pressing space twice restores the state exactly. */
  lemma SpaceTwice(s: Host, seed: Grid)
    requires Valid(s) && Shaped(seed, s.width, s.height)
    ensures KeyUp(s, Space, seed).Continue?
    ensures KeyUp(KeyUp(s, Space, seed).host, Space, seed) == Continue(s)
  {
  }

  /** Pausing a running simulation freezes it: after space, no number of
      idle callbacks changes the state. */
  lemma PauseFreezes(s: Host, seed: Grid, n: nat)
    requires Valid(s) && s.isRunning && Shaped(seed, s.width, s.height)
    ensures KeyUp(s, Space, seed).Continue?
    ensures Ticks(KeyUp(s, Space, seed).host, n) == KeyUp(s, Space, seed).host
  {
    PausedTicksChangeNothing(KeyUp(s, Space, seed).host, n);
  }

  /** After a reseed the next step starts from the seed, whatever the
      buffers held before. */
  lemma ReseedRestarts(s: Host, key: Key, seed: Grid)
    requires Valid(s) && s.isRunning && Shaped(seed, s.width, s.height)
    requires key == UpperR || key == LowerR
    ensures KeyUp(s, key, seed).Continue?
    ensures Idle(KeyUp(s, key, seed).host).bufferIn == Step(seed, s.width, s.height)
    ensures Idle(KeyUp(s, key, seed).host).bufferOut == seed
  {
  }
}

=== FILE: scatter.dfy ===
/** A data-parallel kernel seen from memory: every work item contributes
    zero or more writes `buffer[index] = value`, and the launch applies them
    to the output buffer. Writes are applied in sequence order, so when two
    writes hit the same slot the later one wins; the kernel lemmas show that
    for the kernels of this system the order never matters. */
module Scatter {

  datatype Write<T> = Write(index: nat, value: T)

  /** Every write of `ws` lands inside a buffer of `n` slots. */
  ghost predicate InBounds<T>(ws: seq<Write<T>>, n: nat)
  {
    forall t :: 0 <= t < |ws| ==> ws[t].index < n
  }

  /** Some write of `ws` targets slot `k`. */
  ghost predicate Targets<T>(ws: seq<Write<T>>, k: nat)
  {
    exists t :: 0 <= t < |ws| && ws[t].index == k
  }

  /** `ws[t]` is the last write of `ws` to slot `k`. */
  ghost predicate LastTo<T>(ws: seq<Write<T>>, t: int, k: nat)
  {
    0 <= t < |ws| && ws[t].index == k &&
    forall u :: t < u < |ws| ==> ws[u].index != k
  }

  /** The buffer after all writes of `ws` have been stored, first to last. */
  function Apply<T>(buf: seq<T>, ws: seq<Write<T>>): (r: seq<T>)
    requires InBounds(ws, |buf|)
    ensures |r| == |buf|
    ensures forall k :: 0 <= k < |buf| && !Targets(ws, k) ==> r[k] == buf[k]
    ensures forall k :: 0 <= k < |buf| && Targets(ws, k) ==>
              exists t :: LastTo(ws, t, k) && r[k] == ws[t].value
    decreases |ws|
  {
    if |ws| == 0 then buf
    else
      var rest := Apply(buf[ws[0].index := ws[0].value], ws[1..]);
      ApplyFirst(buf, ws, rest);
      rest
  }

  /** Storing the first write and then the others: what the later writes
      leave is what all of them leave. */
  lemma ApplyFirst<T>(buf: seq<T>, ws: seq<Write<T>>, rest: seq<T>)
    requires |ws| > 0 && InBounds(ws, |buf|) && |rest| == |buf|
    requires forall k :: 0 <= k < |buf| && !Targets(ws[1..], k) ==> rest[k] == buf[ws[0].index := ws[0].value][k]
    requires forall k :: 0 <= k < |buf| && Targets(ws[1..], k) ==>
               exists t :: LastTo(ws[1..], t, k) && rest[k] == ws[1..][t].value
    ensures forall k :: 0 <= k < |buf| && !Targets(ws, k) ==> rest[k] == buf[k]
    ensures forall k :: 0 <= k < |buf| && Targets(ws, k) ==>
              exists t :: LastTo(ws, t, k) && rest[k] == ws[t].value
  {
    forall k | 0 <= k < |buf| && Targets(ws[1..], k)
      ensures Targets(ws, k) && exists t :: LastTo(ws, t, k) && rest[k] == ws[t].value
    {
      var t :| LastTo(ws[1..], t, k) && rest[k] == ws[1..][t].value;
      assert LastTo(ws, t + 1, k);
    }
    forall k | 0 <= k < |buf| && !Targets(ws[1..], k)
      ensures ws[0].index == k ==> LastTo(ws, 0, k) && rest[k] == ws[0].value
      ensures ws[0].index != k ==> !Targets(ws, k) && rest[k] == buf[k]
    {
      forall u | 0 < u < |ws| ensures ws[u].index != k {
        assert ws[1..][u - 1] == ws[u];
      }
    }
  }

  /** A slot is targeted by a concatenation exactly when one of the parts targets it. */
  lemma TargetsConcat<T>(a: seq<Write<T>>, b: seq<Write<T>>, k: nat)
    ensures Targets(a + b, k) <==> Targets(a, k) || Targets(b, k)
  {
    if Targets(a + b, k) {
      var t :| 0 <= t < |a + b| && (a + b)[t].index == k;
      if t >= |a| {
        assert b[t - |a|] == (a + b)[t];
      }
    }
    if Targets(a, k) {
      var t :| 0 <= t < |a| && a[t].index == k;
      assert (a + b)[t] == a[t];
    }
    if Targets(b, k) {
      var t :| 0 <= t < |b| && b[t].index == k;
      assert (a + b)[|a| + t] == b[t];
    }
  }

  /** When every write stores the value `ref` holds for its slot, the result
      no longer depends on how many writes hit a slot or in which order they
      come: a targeted slot holds `ref`'s value, any other slot keeps its
      old contents. */
  lemma ApplyDetermined<T>(buf: seq<T>, ws: seq<Write<T>>, ref: seq<T>)
    requires InBounds(ws, |buf|) && |ref| == |buf|
    requires forall t :: 0 <= t < |ws| ==> ws[t].value == ref[ws[t].index]
    ensures forall k :: 0 <= k < |buf| ==>
              Apply(buf, ws)[k] == if Targets(ws, k) then ref[k] else buf[k]
  {
  }

  /** Reordering the writes does not change which slots they target. */
  lemma TargetsReordered<T>(ws1: seq<Write<T>>, ws2: seq<Write<T>>, k: nat)
    requires multiset(ws1) == multiset(ws2)
    ensures Targets(ws1, k) <==> Targets(ws2, k)
  {
    if Targets(ws1, k) {
      var t :| 0 <= t < |ws1| && ws1[t].index == k;
      assert ws1[t] in multiset(ws2);
      var u :| 0 <= u < |ws2| && ws2[u] == ws1[t];
    }
    if Targets(ws2, k) {
      var t :| 0 <= t < |ws2| && ws2[t].index == k;
      assert ws2[t] in multiset(ws1);
      var u :| 0 <= u < |ws1| && ws1[u] == ws2[t];
    }
  }

  /** Writes whose values are fixed by their slot may run in any order: a
      reordering of them (any interleaving of the work items that issue
      them) stays in bounds and leaves the same buffer. */
  lemma ApplyReordered<T>(buf: seq<T>, ws1: seq<Write<T>>, ws2: seq<Write<T>>, ref: seq<T>)
    requires InBounds(ws1, |buf|) && |ref| == |buf| && multiset(ws1) == multiset(ws2)
    requires forall t :: 0 <= t < |ws1| ==> ws1[t].value == ref[ws1[t].index]
    ensures InBounds(ws2, |buf|)
    ensures Apply(buf, ws1) == Apply(buf, ws2)
  {
    forall u | 0 <= u < |ws2| ensures ws2[u].index < |buf| && ws2[u].value == ref[ws2[u].index] {
      assert ws2[u] in multiset(ws1);
      var t :| 0 <= t < |ws1| && ws1[t] == ws2[u];
    }
    ApplyDetermined(buf, ws1, ref);
    ApplyDetermined(buf, ws2, ref);
    forall k | 0 <= k < |buf| ensures Apply(buf, ws1)[k] == Apply(buf, ws2)[k] {
      TargetsReordered(ws1, ws2, k);
    }
  }
}

=== FILE: splat.dfy ===
/** The particle rasterizer of the n-body demo: `VisualizationClear` blanks
    every pixel of a width-by-height buffer, then `Visualization` runs one
    work item per particle, each painting the square of side 2w+1 around the
    particle's pixel white, with every sample clamped to the buffer by
    `Sampl`. Pixels are addressed as `x + y * width`. Particles are taken
    at their integer pixel centres; `SampledCentre` shows that this loses
    nothing against the kernel's float coordinates. */
module Splat {
  import opened Grid2D
  import opened Scatter

  /** A pixel of the visualisation buffer: the clear colour (0, 0, 0, 0) or
      the particle colour (1, 1, 1, 1). */
  datatype Pixel = Blank | White

  /** A pixel position, possibly outside the buffer. */
  datatype Coord = Coord(x: int, y: int)

  // ---------------------------------------------------------------------
  // Sampl: clamping a coordinate into the buffer

  /** `max(min(n - 1, v), 0)`: the coordinate of the nearest pixel. */
  function Clamp(v: int, n: int): (r: int)
    ensures 1 <= n ==> 0 <= r < n
    ensures 0 <= v < n ==> r == v
    ensures 1 <= n ==> forall p :: 0 <= p < n ==> Dist(r, v) <= Dist(p, v)
  {
    var m := if n - 1 < v then n - 1 else v;
    if m < 0 then 0 else m
  }

  function Dist(a: int, b: int): nat
  {
    if a < b then b - a else a - b
  }

  /** Clamping twice is clamping once. */
  lemma ClampIdempotent(v: int, n: int)
    ensures Clamp(Clamp(v, n), n) == Clamp(v, n)
  {
  }

  /** Clamping keeps the order of coordinates. */
  lemma ClampMonotone(a: int, b: int, n: int)
    requires a <= b
    ensures Clamp(a, n) <= Clamp(b, n)
  {
  }

  /** Moving a coordinate by one moves its clamped pixel by at most one. */
  lemma ClampStep(v: int, n: int)
    ensures Clamp(v + 1, n) == Clamp(v, n) || Clamp(v + 1, n) == Clamp(v, n) + 1
  {
  }

  /** The kernel's `Sampl`: both coordinates clamped into the buffer. */
  function Sampl(c: Coord, width: int, height: int): (s: Coord)
    ensures 1 <= width && 1 <= height ==> 0 <= s.x < width && 0 <= s.y < height
    ensures 0 <= c.x < width && 0 <= c.y < height ==> s == c
  {
    Coord(Clamp(c.x, width), Clamp(c.y, height))
  }

  /** Sampling an already sampled coordinate changes nothing. */
  lemma SamplIdempotent(c: Coord, width: int, height: int)
    ensures Sampl(Sampl(c, width, height), width, height) == Sampl(c, width, height)
  {
    ClampIdempotent(c.x, width);
    ClampIdempotent(c.y, height);
  }

  // ---------------------------------------------------------------------
  // From the kernel's float coordinates to integer pixel centres

  /** Conversion of a float to `int` in OpenCL C: truncation toward zero. */
  function Trunc(v: real): (r: int)
    ensures 0.0 <= v ==> r as real <= v < r as real + 1.0
    ensures v < 0.0 ==> r as real - 1.0 < v <= r as real
  {
    if 0.0 <= v then v.Floor else -((-v).Floor)
  }

  /** The kernel samples `(int)(p + i)` for a float centre `p`. After
      clamping this is the same as the integer centre `floor(p)` moved by
      `i`: truncation and flooring differ only below zero, where the clamp
      sends both to pixel 0. */
  lemma SampledShift(p: real, i: int, n: int)
    ensures Clamp(Trunc(p + i as real), n) == Clamp(p.Floor + i, n)
  {
    var v := p + i as real;
    assert v.Floor == p.Floor + i;
    if v < 0.0 {
      assert Trunc(v) <= 0 && p.Floor + i < 0;
    }
  }

  /** The pixel centre of a particle at float position (px, py): the
      kernel's `posdir.x * (width - 1)`, `posdir.y * (height - 1)`, floored. */
  function PixelCentre(px: real, py: real, width: int, height: int): (c: Coord)
    ensures c.x as real <= px * (width - 1) as real < c.x as real + 1.0
    ensures c.y as real <= py * (height - 1) as real < c.y as real + 1.0
  {
    Coord((px * (width - 1) as real).Floor, (py * (height - 1) as real).Floor)
  }

  /** Every sample the kernel takes for a particle at float position
      (px, py) is the sample of its pixel centre shifted by (i, j). */
  lemma SampledCentre(px: real, py: real, width: int, height: int, i: int, j: int)
    ensures (var c := PixelCentre(px, py, width, height);
             Sampl(Coord(Trunc(px * (width - 1) as real + i as real), Trunc(py * (height - 1) as real + j as real)), width, height)
             == Sampl(Coord(c.x + i, c.y + j), width, height))
  {
    SampledShift(px * (width - 1) as real, i, width);
    SampledShift(py * (height - 1) as real, j, height);
  }

  /** The kernel's `int w = width * r` with r = 0.002: the splat radius. */
  function Radius(width: nat): (w: nat)
    ensures w as real <= (width as real) * 0.002 < w as real + 1.0
  {
    width / 500
  }

  // ---------------------------------------------------------------------
  // VisualizationClear

  /** The writes of clear work item (x, y): one blank pixel inside the buffer, nothing outside. */
  function ClearItem(width: nat, height: nat, x: nat, y: nat): (ws: seq<Write<Pixel>>)
    ensures |ws| == (if x < width && y < height then 1 else 0)
    ensures |ws| == 1 ==> ws[0] == Write(Index(width, x, y), Blank) && ws[0].index < width * height
  {
    if x < width && y < height then
      IndexInBounds(width, height, x, y);
      [Write(Index(width, x, y), Blank)]
    else []
  }

  /** The writes of the clear launch over the work items `ids`. */
  function ClearWrites(width: nat, height: nat, ids: seq<(nat, nat)>): (ws: seq<Write<Pixel>>)
    ensures InBounds(ws, width * height)
    ensures forall t :: 0 <= t < |ws| ==> ws[t].value == Blank
    ensures forall x: nat, y: nat :: x < width && y < height && (x, y) in ids ==> Targets(ws, Index(width, x, y))
    decreases |ids|
  {
    if |ids| == 0 then []
    else
      var first := ClearItem(width, height, ids[0].0, ids[0].1);
      var rest := ClearWrites(width, height, ids[1..]);
      assert forall x: nat, y: nat :: x < width && y < height && (x, y) in ids ==> Targets(first + rest, Index(width, x, y)) by {
        forall x: nat, y: nat | x < width && y < height && (x, y) in ids
          ensures Targets(first + rest, Index(width, x, y))
        {
          TargetsConcat(first, rest, Index(width, x, y));
          if (x, y) == ids[0] {
            assert first[0].index == Index(width, x, y);
          } else {
            assert (x, y) in ids[1..];
          }
        }
      }
      first + rest
  }

  /** A clear launch covering the buffer blanks every pixel, whatever the
      buffer held and in whatever order the work items run. */
  lemma ClearBlanks(buf: seq<Pixel>, width: nat, height: nat, ids: seq<(nat, nat)>)
    requires |buf| == width * height && CoversRange(ids, width, height)
    ensures forall k :: 0 <= k < |buf| ==> Apply(buf, ClearWrites(width, height, ids))[k] == Blank
  {
    var ws := ClearWrites(width, height, ids);
    var blank := seq(|buf|, _ => Blank);
    ApplyDetermined(buf, ws, blank);
    forall k | 0 <= k < |buf| ensures Apply(buf, ws)[k] == Blank {
      IndexDecode(width, height, k);
      assert (Column(width, k), Row(width, k)) in ids;
      assert Targets(ws, Index(width, Column(width, k), Row(width, k)));
    }
  }

  /** The clear kernel launched over the whole buffer. */
  function Clear(buf: seq<Pixel>, width: nat, height: nat): (r: seq<Pixel>)
    requires |buf| == width * height
    ensures |r| == |buf| && forall k :: 0 <= k < |r| ==> r[k] == Blank
  {
    ClearBlanks(buf, width, height, NDRange(width, height));
    Apply(buf, ClearWrites(width, height, NDRange(width, height)))
  }

  // ---------------------------------------------------------------------
  // Visualization: one splat per particle

  /** The flat offset the kernel writes for sample `c`: `coord.x + coord.y * width`
      of the clamped coordinate. */
  function SplatIndex(width: nat, height: nat, c: Coord): (k: nat)
    requires 1 <= width && 1 <= height
    ensures k < width * height
  {
    var s := Sampl(c, width, height);
    IndexInBounds(width, height, s.x, s.y);
    Index(width, s.x, s.y)
  }

  /** The sample at offset `t` from centre `c`, on one axis of side `n`. */
  function Sampled(c: int, t: int, n: int): int
  {
    Clamp(c + t, n)
  }

  /** Pixel `p` lies between the clamped samples at offsets `lo` and
      `hi - 1` around `c`: the offsets lo <= t < hi reach it. */
  predicate Reached(c: int, lo: int, hi: int, p: int, n: int)
  {
    lo < hi && Clamp(c + lo, n) <= p <= Clamp(c + hi - 1, n)
  }

  /** Extending the offsets by one adds exactly the next sample: clamped
      samples of consecutive offsets never skip a pixel. */
  lemma ReachedExtend(c: int, lo: int, hi: int, p: int, n: int)
    requires lo < hi
    ensures Reached(c, lo, hi + 1, p, n) <==> Reached(c, lo, hi, p, n) || Clamp(c + hi, n) == p
  {
    ClampStep(c + hi - 1, n);
    ClampMonotone(c + lo, c + hi - 1, n);
  }

  /** The interval form agrees with the kernel's reading: a pixel is reached
      exactly when some offset lo <= t < hi samples it. */
  lemma ReachedIsSampled(c: int, lo: int, hi: int, p: int, n: int)
    ensures Reached(c, lo, hi, p, n) <==> exists t :: lo <= t < hi && Sampled(c, t, n) == p
  {
    if Reached(c, lo, hi, p, n) {
      var t := if p == Clamp(c + lo, n) then lo else if p == Clamp(c + hi - 1, n) then hi - 1 else p - c;
      assert lo <= t < hi && Sampled(c, t, n) == p;
    }
    if exists t :: lo <= t < hi && Sampled(c, t, n) == p {
      var t :| lo <= t < hi && Sampled(c, t, n) == p;
      ClampMonotone(c + lo, c + t, n);
      ClampMonotone(c + t, c + hi - 1, n);
    }
  }

  /** The inner loop of the kernel for column offset `i`: the writes for
      row offsets lo <= j < hi, in loop order. */
  function ColumnWrites(width: nat, height: nat, c: Coord, i: int, lo: int, hi: int): (ws: seq<Write<Pixel>>)
    requires 1 <= width && 1 <= height
    ensures InBounds(ws, width * height)
    ensures forall t :: 0 <= t < |ws| ==> ws[t].value == White
    ensures forall px: nat, py: nat :: px < width && py < height ==>
              (Targets(ws, Index(width, px, py)) <==> Clamp(c.x + i, width) == px && Reached(c.y, lo, hi, py, height))
    decreases hi - lo
  {
    if hi <= lo then []
    else
      var rest := ColumnWrites(width, height, c, i, lo, hi - 1);
      var last := [Write(SplatIndex(width, height, Coord(c.x + i, c.y + hi - 1)), White)];
      assert forall px: nat, py: nat :: px < width && py < height ==>
               (Targets(rest + last, Index(width, px, py)) <==> Clamp(c.x + i, width) == px && Reached(c.y, lo, hi, py, height)) by {
        forall px: nat, py: nat | px < width && py < height
          ensures Targets(rest + last, Index(width, px, py)) <==> Clamp(c.x + i, width) == px && Reached(c.y, lo, hi, py, height)
        {
          ColumnExtend(width, height, c, i, lo, hi, rest, last, px, py);
        }
      }
      rest + last
  }

  /** One more row offset adds exactly the next clamped sample of the column. */
  lemma ColumnExtend(width: nat, height: nat, c: Coord, i: int, lo: int, hi: int,
                     rest: seq<Write<Pixel>>, last: seq<Write<Pixel>>, px: nat, py: nat)
    requires 1 <= width && 1 <= height && lo < hi && px < width && py < height
    requires Targets(rest, Index(width, px, py)) <==> Clamp(c.x + i, width) == px && Reached(c.y, lo, hi - 1, py, height)
    requires last == [Write(SplatIndex(width, height, Coord(c.x + i, c.y + hi - 1)), White)]
    ensures Targets(rest + last, Index(width, px, py)) <==> Clamp(c.x + i, width) == px && Reached(c.y, lo, hi, py, height)
  {
    TargetsConcat(rest, last, Index(width, px, py));
    var s := Sampl(Coord(c.x + i, c.y + hi - 1), width, height);
    if last[0].index == Index(width, px, py) {
      IndexInjective(width, s.x, s.y, px, py);
    }
    if lo < hi - 1 {
      ReachedExtend(c.y, lo, hi - 1, py, height);
    }
  }

  /** The outer loop of the kernel: the writes for column offsets lo <= i < hi,
      each running the inner loop over -w <= j <= w. */
  function BoxWrites(width: nat, height: nat, c: Coord, w: int, lo: int, hi: int): (ws: seq<Write<Pixel>>)
    requires 1 <= width && 1 <= height
    ensures InBounds(ws, width * height)
    ensures forall t :: 0 <= t < |ws| ==> ws[t].value == White
    ensures forall px: nat, py: nat :: px < width && py < height ==>
              (Targets(ws, Index(width, px, py)) <==> Reached(c.x, lo, hi, px, width) && Reached(c.y, -w, w + 1, py, height))
    decreases hi - lo
  {
    if hi <= lo then []
    else
      var rest := BoxWrites(width, height, c, w, lo, hi - 1);
      var column := ColumnWrites(width, height, c, hi - 1, -w, w + 1);
      assert forall px: nat, py: nat :: px < width && py < height ==>
               (Targets(rest + column, Index(width, px, py)) <==> Reached(c.x, lo, hi, px, width) && Reached(c.y, -w, w + 1, py, height)) by {
        forall px: nat, py: nat | px < width && py < height
          ensures Targets(rest + column, Index(width, px, py)) <==> Reached(c.x, lo, hi, px, width) && Reached(c.y, -w, w + 1, py, height)
        {
          TargetsConcat(rest, column, Index(width, px, py));
          if lo < hi - 1 {
            ReachedExtend(c.x, lo, hi - 1, px, width);
          }
        }
      }
      rest + column
  }

  /** Pixel (px, py) lies in the clamped square of radius `w` around `c`. */
  predicate Footprint(width: nat, height: nat, c: Coord, w: int, px: int, py: int)
  {
    Reached(c.x, -w, w + 1, px, width) && Reached(c.y, -w, w + 1, py, height)
  }

  /** The writes of the work item of a particle centred at `c`. */
  function SplatWrites(width: nat, height: nat, c: Coord, w: int): (ws: seq<Write<Pixel>>)
    requires 1 <= width && 1 <= height
    ensures InBounds(ws, width * height)
    ensures forall t :: 0 <= t < |ws| ==> ws[t].value == White
    ensures forall px: nat, py: nat :: px < width && py < height ==>
              (Targets(ws, Index(width, px, py)) <==> Footprint(width, height, c, w, px, py))
  {
    BoxWrites(width, height, c, w, -w, w + 1)
  }

  /** A splat paints exactly the pixels some offset pair (i, j) with
      -w <= i, j <= w samples: the footprint is the clamped square. */
  lemma FootprintIsSampled(width: nat, height: nat, c: Coord, w: int, px: nat, py: nat)
    requires 1 <= width && 1 <= height && px < width && py < height
    ensures Footprint(width, height, c, w, px, py) <==>
              (exists i :: -w <= i <= w && Sampled(c.x, i, width) == px) &&
              (exists j :: -w <= j <= w && Sampled(c.y, j, height) == py)
  {
    ReachedIsSampled(c.x, -w, w + 1, px, width);
    ReachedIsSampled(c.y, -w, w + 1, py, height);
  }

  /** Some particle of `cs` covers pixel (px, py). */
  predicate Covered(width: nat, height: nat, cs: seq<Coord>, w: int, px: int, py: int)
  {
    exists q :: 0 <= q < |cs| && Footprint(width, height, cs[q], w, px, py)
  }

  /** The writes of the particle launch, work item after work item. */
  function AllSplats(width: nat, height: nat, cs: seq<Coord>, w: int): (ws: seq<Write<Pixel>>)
    requires 1 <= width && 1 <= height
    ensures InBounds(ws, width * height)
    ensures forall t :: 0 <= t < |ws| ==> ws[t].value == White
    ensures forall px: nat, py: nat :: px < width && py < height ==>
              (Targets(ws, Index(width, px, py)) <==> Covered(width, height, cs, w, px, py))
    decreases |cs|
  {
    if |cs| == 0 then []
    else
      var first := SplatWrites(width, height, cs[0], w);
      var rest := AllSplats(width, height, cs[1..], w);
      assert forall px: nat, py: nat :: px < width && py < height ==>
               (Targets(first + rest, Index(width, px, py)) <==> Covered(width, height, cs, w, px, py)) by {
        forall px: nat, py: nat | px < width && py < height
          ensures Targets(first + rest, Index(width, px, py)) <==> Covered(width, height, cs, w, px, py)
        {
          TargetsConcat(first, rest, Index(width, px, py));
          if Covered(width, height, cs[1..], w, px, py) {
            var q :| 0 <= q < |cs[1..]| && Footprint(width, height, cs[1..][q], w, px, py);
            assert Footprint(width, height, cs[q + 1], w, px, py);
          }
          if Covered(width, height, cs, w, px, py) {
            var q :| 0 <= q < |cs| && Footprint(width, height, cs[q], w, px, py);
            if q > 0 {
              assert cs[1..][q - 1] == cs[q];
            }
          }
        }
      }
      first + rest
  }

  /** One frame: the clear launch, then the particle launch with particles at
      pixel centres `cs` and splat radius `w`. Afterwards a pixel is white
      exactly when some particle's clamped square covers it. */
  function Render(buf: seq<Pixel>, width: nat, height: nat, cs: seq<Coord>, w: int): (r: seq<Pixel>)
    requires 1 <= width && 1 <= height && |buf| == width * height
    ensures |r| == |buf|
    ensures forall k :: 0 <= k < |r| ==>
              (var p := Decode(width, height, k);
               r[k] == if Covered(width, height, cs, w, p.0, p.1) then White else Blank)
  {
    var cleared := Clear(buf, width, height);
    var ws := AllSplats(width, height, cs, w);
    ApplyDetermined(cleared, ws, seq(|buf|, _ => White));
    Apply(cleared, ws)
  }

  /** After a frame a pixel is white exactly when some particle's clamped
      square covers it, and blank otherwise. */
  lemma RenderShowsParticles(buf: seq<Pixel>, width: nat, height: nat, cs: seq<Coord>, w: int, px: nat, py: nat)
    requires 1 <= width && 1 <= height && |buf| == width * height && px < width && py < height
    ensures Index(width, px, py) < |buf|
    ensures Render(buf, width, height, cs, w)[Index(width, px, py)] ==
              if Covered(width, height, cs, w, px, py) then White else Blank
  {
    IndexInBounds(width, height, px, py);
    var cleared := Clear(buf, width, height);
    var ws := AllSplats(width, height, cs, w);
    ApplyDetermined(cleared, ws, seq(|buf|, _ => White));
  }

  /** The particle work items may run, and interleave their writes, in any
      order: every reordering of the launch's writes leaves the same frame. */
  lemma SplatsInterleaved(buf: seq<Pixel>, width: nat, height: nat, cs: seq<Coord>, w: int, ws: seq<Write<Pixel>>)
    requires 1 <= width && 1 <= height && |buf| == width * height
    requires multiset(ws) == multiset(AllSplats(width, height, cs, w))
    ensures InBounds(ws, |buf|)
    ensures Apply(Clear(buf, width, height), ws) == Render(buf, width, height, cs, w)
  {
    ApplyReordered(Clear(buf, width, height), AllSplats(width, height, cs, w), ws, seq(|buf|, _ => White));
  }

  /** Coverage depends only on which pixel centres occur. */
  lemma CoveredSameCentres(width: nat, height: nat, cs1: seq<Coord>, cs2: seq<Coord>, w: int, px: int, py: int)
    requires forall c :: c in cs1 <==> c in cs2
    ensures Covered(width, height, cs1, w, px, py) <==> Covered(width, height, cs2, w, px, py)
  {
    if Covered(width, height, cs1, w, px, py) {
      var q :| 0 <= q < |cs1| && Footprint(width, height, cs1[q], w, px, py);
      assert cs1[q] in cs2;
      var q' :| 0 <= q' < |cs2| && cs2[q'] == cs1[q];
    }
    if Covered(width, height, cs2, w, px, py) {
      var q :| 0 <= q < |cs2| && Footprint(width, height, cs2[q], w, px, py);
      assert cs2[q] in cs1;
      var q' :| 0 <= q' < |cs1| && cs1[q'] == cs2[q];
    }
  }

  /** The frame depends only on which pixel centres occur, not on the
      particles' order or multiplicity, nor on what the buffer held before. */
  lemma RenderOrderIndependent(buf1: seq<Pixel>, buf2: seq<Pixel>, width: nat, height: nat,
                               cs1: seq<Coord>, cs2: seq<Coord>, w: int)
    requires 1 <= width && 1 <= height && |buf1| == width * height && |buf2| == width * height
    requires forall c :: c in cs1 <==> c in cs2
    ensures Render(buf1, width, height, cs1, w) == Render(buf2, width, height, cs2, w)
  {
    var r1, r2 := Render(buf1, width, height, cs1, w), Render(buf2, width, height, cs2, w);
    forall k | 0 <= k < |r1| ensures r1[k] == r2[k] {
      IndexDecode(width, height, k);
      var px, py := Column(width, k), Row(width, k);
      RenderShowsParticles(buf1, width, height, cs1, w, px, py);
      RenderShowsParticles(buf2, width, height, cs2, w, px, py);
      CoveredSameCentres(width, height, cs1, cs2, w, px, py);
    }
  }
}
